=== FILE: README.md ===
# Monthly host email report, modelled in Dafny

The model covers the analytics chain of the host email report in
`user_report/assets.py`. Every stage runs once per monthly partition, and the
partitions start on 2023-03-01. The stages are:

1. `monthly_reservations` keeps the reservations whose end date lies in the
   partition's window `[start, end)`. It attaches each reservation's distance
   between property and guest and stamps every row with `month_end = end`,
   the first day of the next month.
2. `property_analytics` groups those rows by
   `(property_id, month_end, market_name, host_id)`. It sums `total_cost`
   into `total_revenue` and counts the rows with `dist <= 100` into
   `num_local_reservations`.
3. `historical_bar_charts` reads the analytics of the partition and the four
   before it, through the `-4` partition mapping. For every distinct property
   it sorts that property's rows by `month_end` and hands the series to a
   renderer. It writes the image to storage under
   `YYYY/MM/total_revenue_property_{id}.png`, built from the property's latest
   month end. It then emits one record per property, stamped with the
   greatest `month_end` of the input.
4. `emails_to_send` left-merges the partition's analytics with the host
   directory on `host_id`. It then left-merges the result with the chart
   records on `(property_id, month_end)`.
5. `send_emails` keeps the rows with `start < month_end <= end`. For each
   row in order it reads the chart image, encodes it in base64 (section 4 of
   RFC 4648) and makes one call of the mail service.

## Module layout

- `Calendar.dfy`: dates, the partition calendar, windows and the five-partition upstream range.
- `Tables.dfy`: the rows of every table.
- `Extraction.dfy`: `monthly_reservations`.
- `Aggregation.dfy`: `property_analytics`.
- `Text.dfy`: decimal formatting, as used in chart paths.
- `Base64.dfy`: the encoder and its decoder partner.
- `Storage.dfy`: `LocalFileStorage`. It is the class `ImageStorage`, whose `files` map is updated in place.
- `Charts.dfy`: `historical_bar_charts`. A loop writes one chart per property, so this stage is a pair of methods.
- `Join.dfy`: pandas' left merge and `emails_to_send`.
- `Dispatch.dfy`: `send_emails` and `EmailService`, whose `outbox` records every call.
- `Pipeline.dfy`: how the stages connect across partitions, plus the worked example of one reservation ending 2023-07-15. Storage of the tables between stages is modelled by one assumption, stated under "Left out": loading a partition gives back exactly the rows that partition's run stored.
- `Seqs.dfy` and `Wrappers.dfy`: shared helpers.

The model follows the code on these points:

- `month_end` is the window's end, the first day of the following month. It is not the last day of the month, so the July 2023 partition's rows carry 2023-08-01 and its charts are filed under `2023/08/`.
- A row whose chart merge found nothing has a NaN path, which formats as `nan`. The loop reads the file `nan`.
- A read of a missing file raises and ends `send_emails`. The rows after it are not sent.
- A partition whose window holds no reservation fails in `monthly_reservations`. pandas' `apply` on an empty frame returns the whole (empty) frame, and assigning that to the `dist` column raises. Such a partition stores no analytics, so a later chart stage sees no rows from it.

## Model

| member | source | states |
|---|---|---|
| Calendar.PartitionStart | user_report/assets.py:18 | partition `k` starts on the first day of the `k`-th month after March 2023 |
| Calendar.PartitionEnd | user_report/assets.py:18 | partition `k` ends on the first day of the following month, which is the next partition's start |
| Calendar.StartsIncrease | user_report/assets.py:18 | partition boundaries strictly increase with the partition index, in both directions |
| Calendar.CompletedPartitions | user_report/assets.py:18 | the partitions up to a date are 0, 1, 2, … in order, and a partition is among them exactly when its window has closed by that date |
| Calendar.InWindowIff | user_report/assets.py:49 | an end date lies in `[start, end)` of partition `k` exactly when it falls in the month of partition `k` |
| Calendar.UpstreamPartitions | user_report/assets.py:119-125 | the `-4` mapping gives between one and five consecutive partitions ending with the target, and exactly the partitions from `k-4` to `k` that are not before the epoch |
| Calendar.StampInDispatchWindow | user_report/assets.py:193-195 | the end of partition `j` lies in `(start, end]` of partition `k` exactly when `j == k` |
| Extraction.Windowed | user_report/assets.py:49 | keeps exactly the query rows whose end date lies in the window, and no more rows than the input |
| Extraction.WindowedByRow | user_report/assets.py:49 | the window works row by row in the query's order: one row is kept exactly when its end date is in the window, and the window of two parts is the first part's followed by the second's |
| Extraction.WindowedCount | user_report/assets.py:49 | a row in the window is kept as many times as the query returned it, and a row outside it never |
| Extraction.WithDistance | user_report/assets.py:53-61 | succeeds exactly when every windowed row has both coordinates; then it maps each row, in order, to its reservation with the distance and `month_end`; otherwise it fails on the first row lacking them |
| Extraction.MonthlyReservations | user_report/assets.py:25-55 | fails exactly when the window holds no row or some windowed row lacks a coordinate side, with the empty-window error in the first case; on success it returns one reservation per windowed row, in order, each carrying its distance and the partition's end |
| Extraction.ExtractionKeepsWindow | user_report/assets.py:49-54 | on success, every output row is stamped with the partition's end, every query row of the partition's month appears, and every output row comes from such a query row |
| Extraction.ExtractionFailsOnlyInWindow | user_report/assets.py:49-61 | extraction fails exactly when no query row lies inside the window or some row inside it lacks a coordinate side; rows outside the window never make it fail |
| Aggregation.Group | user_report/assets.py:71-74 | a group holds exactly the input rows with its key |
| Aggregation.Without | user_report/assets.py:71-74 | removing a group keeps exactly the rows with another key; the two parts add up to the input's size |
| Aggregation.CountLocal | user_report/assets.py:77-79 | the local count is at most the group's size; it is zero when no row is within 100 miles and the whole group when all are |
| Aggregation.PropertyAnalytics | user_report/assets.py:71-93 | there are no more output rows than reservations, and the output is empty exactly when the input is |
| Aggregation.CountLocalIsFilter | user_report/assets.py:77-79 | the local count is the number of the group's rows with `dist <= 100`, the length of the rows under that mask |
| Aggregation.CountLocalExact | user_report/assets.py:77-79 | the local count equals the group's size exactly when every row is within 100 miles, and is zero exactly when none is |
| Aggregation.SummarizeGroup | user_report/assets.py:75-93 | one group's output row keeps the group's key, sums its costs, and counts its rows within 100 miles: at most the group's size, all of it exactly when every row is local, none exactly when no row is |
| Aggregation.RowsSummarizeTheirGroup | user_report/assets.py:75-82 | every output row belongs to a non-empty group; its revenue is the group's cost sum and its local count is the group's count of rows within 100 miles, at most the group's size |
| Aggregation.RowForEveryKey | user_report/assets.py:71-82 | a key has an output row exactly when some input row has that key |
| Aggregation.KeysDistinct | user_report/assets.py:71-82 | no key has two output rows |
| Aggregation.RevenueConserved | user_report/assets.py:76 | the output's revenues add up to the input's total cost |
| Aggregation.MonthEndKept | user_report/assets.py:73 | rows that share one `month_end` give output rows with that `month_end` |
| Text.NatToDecimalInjective | user_report/assets.py:139 | distinct years print differently |
| Text.TwoDigits | user_report/assets.py:139 | `%m` is two digits that read back as the month |
| Text.IntToDecimalInjective | user_report/assets.py:141 | distinct property ids print differently |
| Base64.Encode | user_report/assets.py:197-199 | the encoding has a length divisible by four that is linear in the input's length, uses only the base64 alphabet, and pads only in the last two positions |
| Base64.RoundTrip | user_report/assets.py:197-199 | decoding an encoding gives back the original bytes |
| Storage.ImageStorage.Write | user_report/resources.py:13-18 | the file at the path now holds the data, and every other file is unchanged |
| Storage.ImageStorage.Read | user_report/resources.py:20-22 | a read succeeds exactly when the file exists and returns its contents |
| Storage.WrittenPaths | user_report/resources.py:13-18 | a sequence of writes creates exactly the paths written to |
| Storage.LastWriteWins | user_report/resources.py:17-18 | a file holds the content of the last write to its path |
| Charts.PropertyIds | user_report/assets.py:133 | the `property_id` column, row for row |
| Charts.Unique | user_report/assets.py:133 | `unique()` lists each value of the column exactly once |
| Charts.UniqueKeepsFirstAppearanceOrder | user_report/assets.py:133 | `unique()` lists its values in order of their first appearance |
| Charts.PropertyRows | user_report/assets.py:134-135 | the selection holds exactly one property's rows, and it is empty exactly when the property is absent |
| Charts.PropertyRowsByRow | user_report/assets.py:134-135 | the selection works row by row in input order: one row is kept exactly when it has the property, and selecting from two parts gives the first part's selection followed by the second's |
| Charts.PropertyRowsCount | user_report/assets.py:134-135 | each row of the property is kept as many times as the table holds it, and no other row is kept |
| Charts.SortByMonthEnd | user_report/assets.py:136 | sorting keeps the same rows with the same multiplicities |
| Charts.SortIsSorted | user_report/assets.py:136 | the sorted rows are in ascending `month_end` order |
| Charts.SortedLastIsMax | user_report/assets.py:136-138 | the last sorted row carries the greatest month end of the rows |
| Charts.Series | user_report/assets.py:137 | the renderer gets one `(month_end, total_revenue)` point per row, in the rows' order |
| Charts.RendererGetsPropertyHistory | user_report/assets.py:133-137 | the renderer's rows are exactly the property's rows, as many times as the table holds them, in ascending month order, with nothing padded |
| Charts.MaxMonthEnd | user_report/assets.py:154 | `max()` of the column is one of its values and no value is later |
| Charts.LatestIsMax | user_report/assets.py:138 | `iloc[-1]` of the sorted rows is the property's latest month end |
| Charts.ChartPathFormat | user_report/assets.py:139-141 | a chart path is the year's digits, a slash, two digits that read back as the month, a slash, then `total_revenue_property_`, the id and `.png`; the leading digits read back as the year |
| Charts.ChartPathInjective | user_report/assets.py:139-141 | equal chart paths mean the same property and the same year and month |
| Charts.DistinctPaths | user_report/assets.py:139-141 | two properties of one input never share a chart path |
| Charts.ChartFilesPaths | user_report/assets.py:142-145 | the writes of the loop create exactly the chart paths of its properties |
| Charts.ChartFilesHoldTheirCharts | user_report/assets.py:133-145 | for distinct properties, every chart file holds its own property's rendering and none is overwritten |
| Charts.ChartStageFiles | user_report/assets.py:133-145 | after the stage, each property of the input has its rendered chart at its path |
| Charts.ChartStageKeepsOtherFiles | user_report/assets.py:142-145 | the stage creates no other file and changes no other file |
| Charts.ChartTable | user_report/assets.py:146-154 | one record per distinct property in first-appearance order, with that property's path and the input's latest month end; empty for an empty input |
| Charts.OneRecordPerProperty | user_report/assets.py:133-154 | every property of the input has a record, every record is a property of the input, and no property has two records |
| Charts.StampedPathsAreTable | user_report/assets.py:153-154 | stamping the collected `(property_id, path)` pairs with the latest month end gives the chart table |
| Charts.WriteChart | user_report/assets.py:134-145 | one pass writes the property's rendered series under its path and changes no other file |
| Charts.WriteCharts | user_report/assets.py:132-151 | the loop collects the `(property_id, path)` pairs of all properties in order, and storage gains exactly their writes |
| Charts.HistoricalBarCharts | user_report/assets.py:128-156 | the stage returns the chart table, and storage is the old files overridden by the writes of the chart files |
| Join.Matches | user_report/assets.py:169-180 | the matches of a key are exactly the right rows with that key |
| Join.MatchesByRow | user_report/assets.py:169-180 | matching works row by row in the right table's order: one row matches exactly when it has the key, and the matches in two parts are the first part's followed by the second's |
| Join.MatchesCount | user_report/assets.py:169-180 | a right row with the key is matched as many times as the right table holds it, and no other row is |
| Join.LeftJoin | user_report/assets.py:169-180 | a left merge keeps at least as many rows as its left table |
| Join.LeftJoinByRow | user_report/assets.py:169-180 | one left row yields a row per match, in the right table's order, or itself once without a partner when it has no match; the merge of two parts of the left table is the merge of the first followed by that of the second |
| Join.LeftJoinAppend | user_report/assets.py:169-180 | the merge of two parts of the left table is the merge of the first part followed by that of the second |
| Join.PairedOne | user_report/assets.py:169-180 | against unique right keys, one left row yields exactly one merged row, with a partner exactly when the right table holds its key |
| Join.AtMostOneMatch | user_report/assets.py:175-180 | a right table with unique keys gives at most one match per key |
| Join.LeftJoinPairsMatch | user_report/assets.py:169-180 | every merged row pairs a left row with a right row of the same key, or has no partner only when no right row has that key |
| Join.LeftJoinOneToOne | user_report/assets.py:169-180 | against unique right keys, the merge keeps the left rows one for one and in order, and a row gets a partner exactly when its key exists on the right |
| Join.ToEmailRow | user_report/assets.py:169-182 | an `emails_to_send` row carries the metric, the host and the chart path of its merged row |
| Join.EmailsToSend | user_report/assets.py:163-182 | the table has at least one row per metric |
| Join.EmailsToSendAppend | user_report/assets.py:163-182 | the table for two parts of the metrics is the table of the first part followed by that of the second, so the metrics' order is kept |
| Join.EmailsForOneMetric | user_report/assets.py:163-182 | one metric yields at least one row, and every row it yields carries that metric |
| Join.EmailsOnePerMetric | user_report/assets.py:169-180 | with a keyed host directory and chart records, there is one row per metric, in order; a host is present exactly when the directory has its id, and a chart path exactly when a record has the property and month |
| Join.EmailChartIsTheMatch | user_report/assets.py:175-180 | a row's chart path is the one of the record with its property and month end |
| Join.ChartTableKeysUnique | user_report/assets.py:146-154 | records of distinct properties have distinct `(property_id, month_end)` keys |
| Dispatch.EmailService.constructor | user_report/resources.py:41-48 | a new service has its template id, its sender and no calls yet |
| Dispatch.EmailService.Send | user_report/resources.py:50-57 | one call is appended to the client's log, with the service's sender and template id added |
| Dispatch.DispatchRows | user_report/assets.py:193-195 | keeps exactly the rows whose `month_end` lies in `(start, end]` |
| Dispatch.DispatchRowsByRow | user_report/assets.py:193-195 | the filter works row by row in order: one row is kept exactly when its `month_end` lies in the window, and filtering two parts gives the first part's result followed by the second's |
| Dispatch.DispatchRowsCount | user_report/assets.py:193-195 | a row in the window is kept as many times as the table holds it, and a row outside it never |
| Dispatch.DispatchRowsKeepsAll | user_report/assets.py:193-195 | a table whose rows all lie in the window is kept whole, in order |
| Dispatch.StampedRowSentOnce | user_report/assets.py:193-195 | a row stamped with the end of partition `j` is selected in partition `k` exactly when `j == k` |
| Dispatch.Dispatched | user_report/assets.py:196-211 | the mails for the selected rows follow in row order, one for each row up to the first missing chart file; each carries the host's email, the template and one attachment of the encoded file; a failure is reported exactly when a chart file is missing, and it names the first such path |
| Dispatch.DispatchedStops | user_report/assets.py:196-199 | after a failed read, the later rows add nothing |
| Dispatch.MailCarriesRow | user_report/assets.py:200-211 | a row's mail goes to the host's email, and to nobody exactly when there is no host; the template holds the host's name and the row's revenue; the one attachment decodes back to the image, is `image/png`, is named by the chart path and referenced as `cid:` followed by its text |
| Dispatch.UnmatchedChartReadsNan | user_report/assets.py:198-208 | a row without a chart path reads the file `nan`: if it is missing, dispatch stops there and reports `nan`; otherwise the mail references `cid:nan` and its attachment has no name |
| Dispatch.AttachmentsCarryTheCharts | user_report/assets.py:197-208 | every attachment decodes back to the stored chart bytes, and its content id is `cid:` followed by the path |
| Dispatch.SendEmails | user_report/assets.py:185-211 | the mail log gains exactly the dispatched mails, and the operation reports the failed read |
| Pipeline.Concat | user_report/assets.py:121-125 | with each partition loading as the rows its run stored, the chart stage's input holds exactly the rows of the mapped partitions |
| Pipeline.ConcatByRow | user_report/assets.py:121-125 | under that loading assumption, loading goes partition by partition in order: one partition gives its stored table, and two runs of partitions give the first run's rows followed by the second's |
| Pipeline.ConcatCount | user_report/assets.py:121-125 | under that loading assumption, loading distinct partitions of stamped tables keeps every row of a loaded partition as many times as the partition stores it, and none of a partition not loaded |
| Pipeline.ChartInputCount | user_report/assets.py:119-125 | under that loading assumption, the chart stage of partition `k` reads each stored row of partitions `k-4` to `k` as many times as it is stored, and no row of another partition |
| Pipeline.AnalyticsStamped | user_report/assets.py:49-93 | after a successful extraction, aggregation yields a non-empty table, and every metric is stamped with its partition's end |
| Pipeline.ChartInputWithinFivePartitions | user_report/assets.py:121-125 | every row of the chart input comes from the target partition or one of the four before it, and none lies before the epoch |
| Pipeline.MaxStampSource | user_report/assets.py:154 | the chart stamp is the end of an upstream partition that holds rows |
| Pipeline.ChartStampIsTargetEnd | user_report/assets.py:154 | the chart records carry the target partition's end exactly when the target partition has metrics; otherwise, which happens only when the target's extraction failed, they carry an earlier partition's end |
| Pipeline.MetricInChartInput | user_report/assets.py:121-125 | the target partition's metrics are part of the chart input |
| Pipeline.ChartFromKey | user_report/assets.py:146-154 | every chart record names the chart path of its own property |
| Pipeline.EmailsFindTheirCharts | user_report/assets.py:163-182 | in a partition with metrics, every `emails_to_send` row finds the chart written for its property in the same partition |
| Pipeline.PartitionEmailsAllSelected | user_report/assets.py:192-196 | under that loading assumption, the dispatch filter of a partition keeps all of that partition's `emails_to_send` rows, so it acts as a no-op there |
| Pipeline.JulyExample | user_report/assets.py:49-93 | one reservation ending 2023-07-15 for property 7, costing 180000 with its guest 80 miles away, gives partition July 2023 the single metric row with revenue 180000 and one local reservation, and makes the extraction of June 2023, whose window holds no row, fail with the empty-window error |

## Left out

- The geodesic distance of `calc_dist` (`user_report/assets.py:58-61`) is floating-point ellipsoid arithmetic in geopy. The model takes it as a function parameter; it only models that missing coordinates make the computation fail.
- The SQL text and the database connection. The query's result is a given sequence of joined rows, and only its `WHERE` window predicate is modelled. The model does not carry the `created_at` and coordinate columns past extraction.
- The query selects `r.created_at`, which the `reservation` table created in `database.py:44-51` does not have, so against that schema the query fails before it returns a row. The model assumes a database whose query succeeds and returns the joined rows.
- A property or guest row that exists but has a NULL `lat` or `lon` (`database.py:21-22`, `32-33`) is not represented separately. The distance computation then fails just as for a missing row, so the model treats a NULL coordinate as a missing (`None`) side.
- Chart rendering is a function parameter from the series to the image bytes.
- The file system and the mail client are not modelled. `os.makedirs`, the directory prefix of paths and the print-only `EmailClient` are left out; storage is a map from path to bytes, and the mail client is a log of calls.
- Dates are days. Time of day is left out because every boundary is a midnight.
- Years are formatted without zero padding, which differs from `%Y` only for years before 1000.
- Pipeline.Concat: the model takes each partition's loaded `property_analytics` table to be exactly the rows that partition's run stored, and the partitions' tables to follow one another oldest first. The real load goes through the DuckDB IO manager, which selects rows by their `month_end` column against the partition's time window (`partition_expr`, `user_report/assets.py:23`, `66`, `126`, `161`) and promises no row order. Since every row is stamped with its window's end, which lies outside its own `[start, end)` window, the real selection can differ from the model's, and `send_emails` filters again on `month_end > start` (`user_report/assets.py:193-195`), a filter `Pipeline.PartitionEmailsAllSelected` shows keeps everything under the model's assumption. `Pipeline.ConcatByRow`, `Pipeline.ConcatCount`, `Pipeline.ChartInputCount`, `Pipeline.ChartStampIsTargetEnd` and `Pipeline.EmailsFindTheirCharts` hold for that assumed storage.
- The Dagster wiring, the IO manager and the cron schedule are left out. So are the commented-out `market_analytics` and `send_emails_job`, which only chains the operation to the asset.
- Aggregation.PropertyAnalytics: lists the groups in the order their first row appears, whereas pandas' `groupby` sorts the keys. The set of rows and every row's content are the same.
- Charts.SortByMonthEnd: keeps rows with equal month ends in input order. pandas' default sort does not promise a stable order for ties; only the property's rows and their ascending order are stated.
- A property with no row in the target partition still gets a chart, as in the code, filed under its own latest month. `Pipeline.ChartStampIsTargetEnd` states when the records' stamp is an earlier partition's end.
- Aggregation.RevenueConserved: `total_cost` is a floating-point column (`database.py:50`). The model takes costs as whole cents, so the sums are exact; with floating-point addition the output's revenues add up to the input's total only up to rounding.
- Aggregation.RowForEveryKey: `host_id` and `market_name` may be NULL (`database.py:34-35`), and `groupby` drops rows with a null key by default. The model's keys are never null, so it does not capture those dropped rows, whose cost then leaves the revenue total.
- Calendar.UpstreamPartitions: for a target among the first four partitions, the `-4` mapping reaches before the epoch. The model clamps the range at partition 0; it assumes the mapping is allowed to omit the nonexistent partitions instead of raising.

=== FILE: Aggregation.dfy ===
/** The `property_analytics` stage: reservations grouped by property, month,
    market and host, with the revenue summed and the local guests counted. */
module Aggregation {

  import opened Calendar
  import opened Tables
  import opened Seqs

  /** Guests within this many miles of the property are local. */
  const LocalMiles: real := 100.0

  function Key(r: Reservation): GroupKey {
    GroupKey(r.propertyId, r.monthEnd, r.marketName, r.hostId)
  }

  predicate IsLocal(r: Reservation) {
    r.dist <= LocalMiles
  }

  /** The rows of group `key`, in input order. */
  function Group(rows: seq<Reservation>, key: GroupKey): (g: seq<Reservation>)
    ensures |g| <= |rows|
    ensures forall r :: r in g <==> r in rows && Key(r) == key
  {
    if rows == [] then []
    else (if Key(rows[0]) == key then [rows[0]] else []) + Group(rows[1..], key)
  }

  /** The rows outside group `key`, in input order. */
  function Without(rows: seq<Reservation>, key: GroupKey): (w: seq<Reservation>)
    ensures |w| + |Group(rows, key)| == |rows|
    ensures forall r :: r in w <==> r in rows && Key(r) != key
  {
    if rows == [] then []
    else (if Key(rows[0]) != key then [rows[0]] else []) + Without(rows[1..], key)
  }

  /** `sum(total_cost)` over some rows. */
  function SumCost(rows: seq<Reservation>): int {
    if rows == [] then 0 else rows[0].totalCost + SumCost(rows[1..])
  }

  /** `(dist <= 100).sum()` over some rows: how many of them are local. */
  function CountLocal(rows: seq<Reservation>): (n: nat)
    ensures n <= |rows|
    ensures n == 0 <== forall r :: r in rows ==> !IsLocal(r)
    ensures n == |rows| <== forall r :: r in rows ==> IsLocal(r)
  {
    if rows == [] then 0 else (if IsLocal(rows[0]) then 1 else 0) + CountLocal(rows[1..])
  }

  /** The output row of one group. */
  function Summarize(key: GroupKey, group: seq<Reservation>): PropertyMetric {
    PropertyMetric(key.propertyId, key.hostId, key.marketName, key.monthEnd,
                   SumCost(group), CountLocal(group))
  }

  /** The local count is the number of rows within 100 miles: the length of
      the rows masked by `dist <= 100`. */
  lemma {:induction false} CountLocalIsFilter(rows: seq<Reservation>)
    ensures CountLocal(rows) == |Filter(rows, r => IsLocal(r))|
    decreases |rows|
  {
    if rows != [] {
      CountLocalIsFilter(rows[1..]);
    }
  }

  /** The local count is the group's size exactly when every row is local,
      and zero exactly when none is. */
  lemma {:induction false} CountLocalExact(rows: seq<Reservation>)
    ensures CountLocal(rows) == |rows| <==> forall r :: r in rows ==> IsLocal(r)
    ensures CountLocal(rows) == 0 <==> forall r :: r in rows ==> !IsLocal(r)
    decreases |rows|
  {
    if rows != [] {
      CountLocalExact(rows[1..]);
      assert forall r :: r in rows <==> r == rows[0] || r in rows[1..];
    }
  }

  /** A summarized group keeps its key, sums its costs and counts its local
      rows: the count is at most the group's size, equal to it exactly when
      every row is local and zero exactly when none is. */
  lemma SummarizeGroup(key: GroupKey, group: seq<Reservation>)
    ensures var m := Summarize(key, group);
      && KeyOf(m) == key
      && m.totalRevenue == SumCost(group)
      && m.numLocalReservations <= |group|
      && (m.numLocalReservations == |group| <==> forall r :: r in group ==> IsLocal(r))
      && (m.numLocalReservations == 0 <==> forall r :: r in group ==> !IsLocal(r))
  {
    CountLocalExact(group);
  }

  /** The `property_analytics` table: one row per group present in the input,
      groups in the order their first row appears. */
  function PropertyAnalytics(rows: seq<Reservation>): (out: seq<PropertyMetric>)
    ensures |out| <= |rows|
    ensures rows == [] <==> out == []
    decreases |rows|
  {
    if rows == [] then []
    else
      var key := Key(rows[0]);
      assert rows[0] in Group(rows, key);
      [Summarize(key, Group(rows, key))] + PropertyAnalytics(Without(rows, key))
  }

  /** The group keys of the output rows, in order. */
  function OutputKeys(out: seq<PropertyMetric>): (ks: seq<GroupKey>)
    ensures |ks| == |out| && forall i :: 0 <= i < |out| ==> ks[i] == KeyOf(out[i])
  {
    if out == [] then [] else [KeyOf(out[0])] + OutputKeys(out[1..])
  }

  lemma {:induction false} GroupOfWithout(rows: seq<Reservation>, key: GroupKey, other: GroupKey)
    requires key != other
    ensures Group(Without(rows, key), other) == Group(rows, other)
  {
    if rows != [] {
      var w' := Without(rows[1..], key);
      GroupOfWithout(rows[1..], key, other);
      if Key(rows[0]) != key {
        var w := [rows[0]] + w';
        assert Without(rows, key) == w;
        assert w[0] == rows[0] && w[1..] == w';
        assert Group(w, other) == (if Key(rows[0]) == other then [rows[0]] else []) + Group(w', other);
      } else {
        assert Without(rows, key) == [] + w' == w';
        assert Group(rows, other) == [] + Group(rows[1..], other);
      }
    }
  }

  lemma {:induction false} NoGroupLeft(rows: seq<Reservation>, key: GroupKey)
    ensures Group(Without(rows, key), key) == []
  {
    if rows != [] {
      NoGroupLeft(rows[1..], key);
      var w' := Without(rows[1..], key);
      if Key(rows[0]) != key {
        var w := [rows[0]] + w';
        assert Without(rows, key) == w && w[1..] == w';
      } else {
        assert Without(rows, key) == w';
      }
    }
  }

  lemma {:induction false} SumCostSplit(rows: seq<Reservation>, key: GroupKey)
    ensures SumCost(rows) == SumCost(Group(rows, key)) + SumCost(Without(rows, key))
  {
    if rows != [] {
      SumCostSplit(rows[1..], key);
      var g, w := Group(rows, key), Without(rows, key);
      if Key(rows[0]) == key {
        assert g[1..] == Group(rows[1..], key) && w == Without(rows[1..], key);
      } else {
        assert w[1..] == Without(rows[1..], key) && g == Group(rows[1..], key);
      }
    }
  }

  /** Every output row is the summary of the input rows of its own group: the
      group is not empty, the revenue is the sum of the group's costs, and the
      local count is the number of the group's rows within 100 miles, which is
      at most the group's size. */
  lemma {:induction false} RowsSummarizeTheirGroup(rows: seq<Reservation>)
    ensures forall m :: m in PropertyAnalytics(rows) ==>
      && Group(rows, KeyOf(m)) != []
      && m.totalRevenue == SumCost(Group(rows, KeyOf(m)))
      && m.numLocalReservations == CountLocal(Group(rows, KeyOf(m)))
      && m.numLocalReservations <= |Group(rows, KeyOf(m))|
    decreases |rows|
  {
    if rows != [] {
      var key := Key(rows[0]);
      var rest := Without(rows, key);
      assert rows[0] in Group(rows, key);
      RowsSummarizeTheirGroup(rest);
      forall m | m in PropertyAnalytics(rest)
        ensures Group(rows, KeyOf(m)) == Group(rest, KeyOf(m))
      {
        NoGroupLeft(rows, key);
        if KeyOf(m) != key {
          GroupOfWithout(rows, key, KeyOf(m));
        }
      }
    }
  }

  /** The output has a row for every group key present in the input, and none
      for keys with no reservation. */
  lemma {:induction false} RowForEveryKey(rows: seq<Reservation>)
    ensures forall key :: key in OutputKeys(PropertyAnalytics(rows)) <==> Group(rows, key) != []
    decreases |rows|
  {
    if rows != [] {
      var key := Key(rows[0]);
      var rest := Without(rows, key);
      assert rows[0] in Group(rows, key);
      RowForEveryKey(rest);
      var out, tail := PropertyAnalytics(rows), PropertyAnalytics(rest);
      assert out[1..] == tail;
      var ks, kt := OutputKeys(out), OutputKeys(tail);
      assert ks == [key] + kt;
      forall other | other != key ensures other in ks <==> Group(rows, other) != [] {
        GroupOfWithout(rows, key, other);
      }
    }
  }

  /** No group key has two output rows. */
  lemma {:induction false} KeysDistinct(rows: seq<Reservation>)
    ensures Distinct(OutputKeys(PropertyAnalytics(rows)))
    decreases |rows|
  {
    if rows != [] {
      var key := Key(rows[0]);
      var rest := Without(rows, key);
      assert rows[0] in Group(rows, key);
      KeysDistinct(rest);
      RowForEveryKey(rest);
      NoGroupLeft(rows, key);
      var out, tail := PropertyAnalytics(rows), PropertyAnalytics(rest);
      assert out[1..] == tail;
      var ks, kt := OutputKeys(out), OutputKeys(tail);
      assert ks == [key] + kt;
      DistinctCons(key, kt);
    }
  }

  /** The revenue column of a table, summed. */
  function SumRevenue(out: seq<PropertyMetric>): int {
    if out == [] then 0 else out[0].totalRevenue + SumRevenue(out[1..])
  }

  /** Aggregation neither loses nor invents revenue: the output's revenues add
      up to the input's costs. */
  lemma {:induction false} RevenueConserved(rows: seq<Reservation>)
    ensures SumRevenue(PropertyAnalytics(rows)) == SumCost(rows)
    decreases |rows|
  {
    if rows != [] {
      var key := Key(rows[0]);
      assert rows[0] in Group(rows, key);
      RevenueConserved(Without(rows, key));
      SumCostSplit(rows, key);
      var out := PropertyAnalytics(rows);
      assert out[1..] == PropertyAnalytics(Without(rows, key));
    }
  }

  /** Rows of one partition produce rows of that partition only. */
  lemma {:induction false} MonthEndKept(rows: seq<Reservation>, monthEnd: Date)
    requires forall r :: r in rows ==> r.monthEnd == monthEnd
    ensures forall m :: m in PropertyAnalytics(rows) ==> m.monthEnd == monthEnd
    decreases |rows|
  {
    if rows != [] {
      var key := Key(rows[0]);
      assert rows[0] in Group(rows, key);
      MonthEndKept(Without(rows, key), monthEnd);
    }
  }
}

=== FILE: Base64.dfy ===
/** The base 64 encoding of section 4 of RFC 4648 (alphabet `A-Z a-z 0-9 + /`,
    `=` padding), which `base64.b64encode` applies to a chart image before it
    is attached to an email, with the decoder that inverts it. */
module Base64 {

  import opened Wrappers

  type Byte = b: int | 0 <= b < 256
  type Sextet = i: int | 0 <= i < 64

  const Pad: char := '='

  predicate IsAlphabetChar(c: char) {
    ('A' <= c <= 'Z') || ('a' <= c <= 'z') || ('0' <= c <= '9') || c == '+' || c == '/'
  }

  /** The value a character of the alphabet encodes. */
  function CharIndex(c: char): Sextet
    requires IsAlphabetChar(c)
  {
    if 'A' <= c <= 'Z' then c as int - 'A' as int
    else if 'a' <= c <= 'z' then c as int - 'a' as int + 26
    else if '0' <= c <= '9' then c as int - '0' as int + 52
    else if c == '+' then 62
    else 63
  }

  /** The character of the alphabet for a 6-bit value (table 1 of RFC 4648). */
  function IndexChar(i: Sextet): (c: char)
    ensures IsAlphabetChar(c) && CharIndex(c) == i
  {
    if i < 26 then ('A' as int + i) as char
    else if i < 52 then ('a' as int + i - 26) as char
    else if i < 62 then ('0' as int + i - 52) as char
    else if i == 62 then '+'
    else '/'
  }

  /** Three bytes, 24 bits, as four characters of six bits each. */
  function EncodeBlock(b0: Byte, b1: Byte, b2: Byte): string {
    [IndexChar(b0 / 4), IndexChar(b0 % 4 * 16 + b1 / 16), IndexChar(b1 % 16 * 4 + b2 / 64), IndexChar(b2 % 64)]
  }

  /** A final group of one byte: two characters and two pad characters. */
  function EncodeOne(b0: Byte): string {
    [IndexChar(b0 / 4), IndexChar(b0 % 4 * 16), Pad, Pad]
  }

  /** A final group of two bytes: three characters and one pad character. */
  function EncodeTwo(b0: Byte, b1: Byte): string {
    [IndexChar(b0 / 4), IndexChar(b0 % 4 * 16 + b1 / 16), IndexChar(b1 % 16 * 4), Pad]
  }

  /** The base 64 encoding of `data`: four characters per started group of
      three bytes, padded with `=` only in the last group. */
  function Encode(data: seq<Byte>): (s: string)
    ensures |s| % 4 == 0 && 4 * |data| <= 3 * |s| < 4 * |data| + 12
    ensures forall i :: 0 <= i < |s| ==> IsAlphabetChar(s[i]) || s[i] == Pad
    ensures forall i :: 0 <= i < |s| && s[i] == Pad ==> |s| - 2 <= i
    decreases |data|
  {
    if |data| == 0 then ""
    else if |data| == 1 then EncodeOne(data[0])
    else if |data| == 2 then EncodeTwo(data[0], data[1])
    else EncodeBlock(data[0], data[1], data[2]) + Encode(data[3..])
  }

  /** The first byte of a group from its first two characters. */
  function Byte0(i0: Sextet, i1: Sextet): Byte {
    i0 * 4 + i1 / 16
  }

  /** The second byte of a group from its second and third characters. */
  function Byte1(i1: Sextet, i2: Sextet): Byte {
    i1 % 16 * 16 + i2 / 4
  }

  /** The third byte of a group from its third and fourth characters. */
  function Byte2(i2: Sextet, i3: Sextet): Byte {
    i2 % 4 * 64 + i3
  }

  /** Decodes one group of four characters; `last` tells whether padding may
      appear in it. */
  function DecodeBlock(g: string, last: bool): Option<seq<Byte>>
    requires |g| == 4
  {
    if last && g[2] == Pad && g[3] == Pad then
      if IsAlphabetChar(g[0]) && IsAlphabetChar(g[1]) then
        Some([Byte0(CharIndex(g[0]), CharIndex(g[1]))])
      else None
    else if last && g[3] == Pad then
      if IsAlphabetChar(g[0]) && IsAlphabetChar(g[1]) && IsAlphabetChar(g[2]) then
        Some([Byte0(CharIndex(g[0]), CharIndex(g[1])), Byte1(CharIndex(g[1]), CharIndex(g[2]))])
      else None
    else if IsAlphabetChar(g[0]) && IsAlphabetChar(g[1]) && IsAlphabetChar(g[2]) && IsAlphabetChar(g[3]) then
      Some([Byte0(CharIndex(g[0]), CharIndex(g[1])), Byte1(CharIndex(g[1]), CharIndex(g[2])),
            Byte2(CharIndex(g[2]), CharIndex(g[3]))])
    else None
  }

  /** Concatenates two decoded pieces, failing when either failed. */
  function Concat(a: Option<seq<Byte>>, b: Option<seq<Byte>>): Option<seq<Byte>> {
    if a.Some? && b.Some? then Some(a.value + b.value) else None
  }

  /** The bytes a base 64 text stands for, or `None` when it is not one. */
  function Decode(s: string): Option<seq<Byte>>
    decreases |s|
  {
    if |s| % 4 != 0 then None
    else if s == [] then Some([])
    else Concat(DecodeBlock(s[..4], |s| == 4), Decode(s[4..]))
  }

  lemma Byte0RoundTrip(b0: Byte, b1: Byte)
    ensures Byte0(b0 / 4, b0 % 4 * 16 + b1 / 16) == b0
  {
    var hi := b1 / 16;
    assert 0 <= hi < 16;
    assert (b0 % 4 * 16 + hi) / 16 == b0 % 4;
  }

  lemma Byte1RoundTrip(b0: Byte, b1: Byte, b2: Byte)
    ensures Byte1(b0 % 4 * 16 + b1 / 16, b1 % 16 * 4 + b2 / 64) == b1
  {
    var hi, lo := b1 / 16, b2 / 64;
    assert 0 <= hi < 16 && 0 <= lo < 4;
    assert (b0 % 4 * 16 + hi) % 16 == hi;
    assert (b1 % 16 * 4 + lo) / 4 == b1 % 16;
  }

  lemma Byte2RoundTrip(b1: Byte, b2: Byte)
    ensures Byte2(b1 % 16 * 4 + b2 / 64, b2 % 64) == b2
  {
    var lo := b2 / 64;
    assert 0 <= lo < 4;
    assert (b1 % 16 * 4 + lo) % 4 == lo;
  }

  lemma BlockRoundTrip(b0: Byte, b1: Byte, b2: Byte, last: bool)
    ensures DecodeBlock(EncodeBlock(b0, b1, b2), last) == Some([b0, b1, b2])
  {
    Byte0RoundTrip(b0, b1);
    Byte1RoundTrip(b0, b1, b2);
    Byte2RoundTrip(b1, b2);
  }

  lemma OneRoundTrip(b0: Byte)
    ensures DecodeBlock(EncodeOne(b0), true) == Some([b0])
  {
    Byte0RoundTrip(b0, 0);
  }

  lemma TwoRoundTrip(b0: Byte, b1: Byte)
    ensures DecodeBlock(EncodeTwo(b0, b1), true) == Some([b0, b1])
  {
    Byte0RoundTrip(b0, b1);
    Byte1RoundTrip(b0, b1, 0);
  }

  /** Decoding a text made of a full group followed by more groups decodes the
      group and then the rest. */
  lemma DecodeCons(head: string, tail: string)
    requires |head| == 4 && |tail| % 4 == 0
    ensures Decode(head + tail) == Concat(DecodeBlock(head, tail == []), Decode(tail))
  {
    var s := head + tail;
    assert s[..4] == head && s[4..] == tail;
    assert |s| % 4 == 0 && s != [];
    calc {
      Decode(s);
      Concat(DecodeBlock(s[..4], |s| == 4), Decode(s[4..]));
      Concat(DecodeBlock(head, tail == []), Decode(tail));
    }
  }

  lemma LastGroupRoundTrip(g: string, data: seq<Byte>)
    requires |g| == 4
    requires 1 <= |data| <= 3
    requires |data| == 1 ==> g == EncodeOne(data[0])
    requires |data| == 2 ==> g == EncodeTwo(data[0], data[1])
    requires |data| == 3 ==> g == EncodeBlock(data[0], data[1], data[2])
    ensures Decode(g) == Some(data)
  {
    DecodeCons(g, []);
    assert g + [] == g;
    if |data| == 1 {
      OneRoundTrip(data[0]);
      assert [data[0]] == data;
    } else if |data| == 2 {
      TwoRoundTrip(data[0], data[1]);
      assert [data[0], data[1]] == data;
    } else {
      BlockRoundTrip(data[0], data[1], data[2], true);
      assert [data[0], data[1], data[2]] == data;
    }
    assert DecodeBlock(g, true) == Some(data);
    assert Decode([]) == Some([]);
    assert data + [] == data;
    assert Concat(Some(data), Some([])) == Some(data);
  }

  /** Decoding an encoding gives the original bytes back. */
  lemma {:induction false} RoundTrip(data: seq<Byte>)
    ensures Decode(Encode(data)) == Some(data)
    decreases |data|
  {
    if |data| == 1 {
      LastGroupRoundTrip(EncodeOne(data[0]), data);
    } else if |data| == 2 {
      LastGroupRoundTrip(EncodeTwo(data[0], data[1]), data);
    } else if |data| > 2 {
      RoundTrip(data[3..]);
      RoundTripStep(data);
    }
  }

  lemma SplitGroup(data: seq<Byte>)
    requires |data| > 2
    ensures [data[0], data[1], data[2]] + data[3..] == data
  {
  }

  /** One full group in front of a tail that round-trips. */
  lemma RoundTripStep(data: seq<Byte>)
    requires |data| > 2
    requires Decode(Encode(data[3..])) == Some(data[3..])
    ensures Decode(Encode(data)) == Some(data)
  {
    var group := [data[0], data[1], data[2]];
    SplitGroup(data);
    var head, tail := EncodeBlock(data[0], data[1], data[2]), Encode(data[3..]);
    assert Encode(data) == head + tail;
    DecodeCons(head, tail);
    BlockRoundTrip(data[0], data[1], data[2], tail == []);
    assert Concat(Some(group), Some(data[3..])) == Some(data);
  }
}

=== FILE: Calendar.dfy ===
/** The monthly partition calendar of the pipeline: a `MonthlyPartitionsDefinition`
    whose first partition starts on 2023-03-01.  Partition `k` (a natural number)
    is the `k`-th calendar month after March 2023; its time window is the half-open
    interval from the first day of that month to the first day of the next one. */
module Calendar {

  type MonthOfYear = m: int | 1 <= m <= 12 witness 1
  type DayOfMonth = d: int | 1 <= d <= 31 witness 1

  /** A calendar date (the pipeline compares timestamps whose partition
      boundaries fall on midnight, so the time of day never matters). */
  datatype Date = Date(year: nat, month: MonthOfYear, day: DayOfMonth)

  /** A number that orders dates chronologically: year, then month, then day. */
  function Ordinal(d: Date): int {
    d.year * 512 + d.month * 32 + d.day
  }

  /** Strict chronological order of dates. */
  predicate Before(a: Date, b: Date) {
    Ordinal(a) < Ordinal(b)
  }

  /** Dates with the same ordinal are the same date, so the chronological order
      is a total order. */
  lemma OrdinalInjective(a: Date, b: Date)
    ensures Ordinal(a) == Ordinal(b) <==> a == b
  {
  }

  predicate AtOrBefore(a: Date, b: Date) {
    Ordinal(a) <= Ordinal(b)
  }

  const EpochYear: nat := 2023
  const EpochMonth: MonthOfYear := 3

  /** The first partition's start, 2023-03-01. */
  const Epoch: Date := Date(EpochYear, EpochMonth, 1)

  /** How many whole months after the epoch's month `d` lies (negative before it). */
  function MonthIndex(d: Date): int {
    (d.year - EpochYear) * 12 + d.month - EpochMonth
  }

  /** The start of partition `k`: the first day of the `k`-th month after the epoch's. */
  function PartitionStart(k: nat): (d: Date)
    ensures d.day == 1 && MonthIndex(d) == k
  {
    Date(EpochYear + (k + 2) / 12, (k + 2) % 12 + 1, 1)
  }

  /** The exclusive end of partition `k`; the pipeline stamps it on every row
      of that partition as `month_end`. */
  function PartitionEnd(k: nat): (d: Date)
    ensures d.day == 1 && MonthIndex(d) == k + 1
  {
    PartitionStart(k + 1)
  }

  /** The partition-window test `start <= t < end`. */
  predicate InWindow(t: Date, k: nat) {
    AtOrBefore(PartitionStart(k), t) && Before(t, PartitionEnd(k))
  }

  lemma FirstOfMonthAtOrBefore(j: nat, d: Date)
    ensures AtOrBefore(PartitionStart(j), d) <==> j <= MonthIndex(d)
  {
    var s := PartitionStart(j);
    if j <= MonthIndex(d) {
      assert s.year < d.year || (s.year == d.year && s.month <= d.month);
    }
  }

  /** Every date falls in the window of exactly one partition, the one its month
      names; dates before the epoch fall in none. */
  lemma {:induction false} InWindowIff(t: Date, k: nat)
    ensures InWindow(t, k) <==> MonthIndex(t) == k
  {
    FirstOfMonthAtOrBefore(k, t);
    FirstOfMonthAtOrBefore(k + 1, t);
  }

  /** Partition boundaries are strictly increasing in the partition index. */
  lemma {:induction false} StartsIncrease(j: nat, k: nat)
    ensures Before(PartitionStart(j), PartitionStart(k)) <==> j < k
  {
    FirstOfMonthAtOrBefore(k, PartitionStart(j));
    FirstOfMonthAtOrBefore(j, PartitionStart(k));
  }

  /** The boundary `PartitionEnd(j)` lies in the half-open-on-the-left window
      `(PartitionStart(k), PartitionEnd(k)]` exactly when `j == k`: a row stamped
      with the previous partition's end (which is this partition's start) is
      outside it, one stamped with this partition's end is inside. */
  lemma {:induction false} StampInDispatchWindow(j: nat, k: nat)
    ensures (Before(PartitionStart(k), PartitionEnd(j)) && AtOrBefore(PartitionEnd(j), PartitionEnd(k)))
            <==> j == k
  {
    StartsIncrease(k, j + 1);
    StartsIncrease(j + 1, k + 1);
  }

  /** The partitions whose window has closed by `now`, in increasing order:
      the partition set of a monthly definition starting at the epoch. */
  function CompletedPartitions(now: Date): (ks: seq<nat>)
    ensures forall i :: 0 <= i < |ks| ==> ks[i] == i
    ensures forall k: nat :: k in ks <==> AtOrBefore(PartitionEnd(k), now)
  {
    var n := if MonthIndex(now) > 0 then MonthIndex(now) else 0;
    var ks := seq(n, i requires 0 <= i < n => i);
    assert forall k: nat :: AtOrBefore(PartitionEnd(k), now) <==> k < n by {
      forall k: nat ensures AtOrBefore(PartitionEnd(k), now) <==> k < n {
        FirstOfMonthAtOrBefore(k + 1, now);
      }
    }
    assert forall k: nat :: k in ks <==> k < n by {
      forall k: nat ensures k in ks <==> k < n {
        if k < n { assert ks[k] == k; }
      }
    }
    ks
  }

  /** The partitions read for target partition `k` through a time-window mapping
      with start offset -4: the target and up to four before it, clamped at the
      epoch, oldest first. */
  function UpstreamPartitions(k: nat): (ks: seq<nat>)
    ensures 1 <= |ks| <= 5 && ks[|ks| - 1] == k
    ensures forall i :: 0 <= i < |ks| ==> ks[i] == ks[0] + i
    ensures forall j: nat :: j in ks <==> k - 4 <= j <= k
  {
    var lo := if k >= 4 then k - 4 else 0;
    var ks := seq(k - lo + 1, i requires 0 <= i <= k - lo => lo + i);
    assert forall j: nat :: j in ks <==> lo <= j <= k by {
      forall j: nat ensures j in ks <==> lo <= j <= k {
        if lo <= j <= k { assert ks[j - lo] == j; }
      }
    }
    ks
  }
}

=== FILE: Charts.dfy ===
/** The `historical_bar_charts` stage: for every property of the metrics of
    the target partition and up to four before it, the revenue series in month
    order is rendered, the image is written to storage under a path naming the
    property's latest month, and a record of that path is emitted. */
module Charts {

  import opened Wrappers
  import opened Calendar
  import opened Tables
  import opened Text
  import opened Seqs
  import opened Storage

  /** One point of the series handed to the renderer: `month_end` on the x axis,
      `total_revenue` on the y axis. */
  datatype SeriesPoint = SeriesPoint(monthEnd: Date, totalRevenue: int)

  /** The `property_id` column. */
  function PropertyIds(metrics: seq<PropertyMetric>): (ids: seq<int>)
    ensures |ids| == |metrics|
    ensures forall i :: 0 <= i < |metrics| ==> ids[i] == metrics[i].propertyId
  {
    seq(|metrics|, i requires 0 <= i < |metrics| => metrics[i].propertyId)
  }

  /** pandas' `unique()`: the distinct values of `s`. */
  function Unique(s: seq<int>): (u: seq<int>)
    ensures Distinct(u)
    ensures forall x :: x in u <==> x in s
    decreases |s|
  {
    if s == [] then []
    else
      var n := |s| - 1;
      var u := Unique(s[..n]);
      assert s == s[..n] + [s[n]];
      if s[n] in u then u else DistinctSnoc(u, s[n]); u + [s[n]]
  }

  /** `unique()` lists the values in the order of their first appearance. */
  lemma {:induction false} UniqueKeepsFirstAppearanceOrder(s: seq<int>)
    ensures forall i, j :: 0 <= i < j < |Unique(s)| ==> FirstIndex(s, Unique(s)[i]) < FirstIndex(s, Unique(s)[j])
    decreases |s|
  {
    if s != [] {
      var n := |s| - 1;
      var u, v := Unique(s), Unique(s[..n]);
      UniqueKeepsFirstAppearanceOrder(s[..n]);
      assert s == s[..n] + [s[n]];
      forall i, j | 0 <= i < j < |u| ensures FirstIndex(s, u[i]) < FirstIndex(s, u[j]) {
        assert u[i] == v[i] && v[i] in s[..n];
        FirstIndexPrefix(s, n, v[i]);
        if j < |v| {
          assert u[j] == v[j] && v[j] in s[..n];
          FirstIndexPrefix(s, n, v[j]);
          assert FirstIndex(s[..n], v[i]) < FirstIndex(s[..n], v[j]);
        } else {
          assert u[j] == s[n] && s[n] !in s[..n];
          var f := FirstIndex(s, s[n]);
          forall k | 0 <= k < n ensures s[k] != s[n] {
            assert s[k] == s[..n][k];
          }
          assert f == n;
        }
      }
    }
  }

  /** Whether a metric row belongs to property `propertyId`. */
  predicate OfProperty(m: PropertyMetric, propertyId: int) {
    m.propertyId == propertyId
  }

  /** `property_analytics[property_analytics["property_id"] == property_id]`. */
  function PropertyRows(metrics: seq<PropertyMetric>, propertyId: int): (rows: seq<PropertyMetric>)
    ensures |rows| <= |metrics|
    ensures forall m :: m in rows <==> m in metrics && m.propertyId == propertyId
    ensures rows != [] <==> propertyId in PropertyIds(metrics)
  {
    var rows := Filter(metrics, m => OfProperty(m, propertyId));
    assert rows != [] <==> propertyId in PropertyIds(metrics) by {
      if propertyId in PropertyIds(metrics) {
        var i :| 0 <= i < |metrics| && PropertyIds(metrics)[i] == propertyId;
        assert metrics[i] in rows;
      }
      if rows != [] {
        assert rows[0] in metrics;
        var i :| 0 <= i < |metrics| && metrics[i] == rows[0];
        assert PropertyIds(metrics)[i] == propertyId;
      }
    }
    rows
  }

  /** The selection works row by row, in the table's order: a row of the
      property is kept once, any other row is dropped, and the selection from
      two parts of a table is that of the first part followed by that of the
      second. */
  lemma PropertyRowsByRow(a: seq<PropertyMetric>, b: seq<PropertyMetric>, m: PropertyMetric, propertyId: int)
    ensures PropertyRows([m], propertyId) == if m.propertyId == propertyId then [m] else []
    ensures PropertyRows(a + b, propertyId) == PropertyRows(a, propertyId) + PropertyRows(b, propertyId)
  {
    FilterAppend(a, b, m => OfProperty(m, propertyId));
    assert [m][1..] == [];
  }

  /** Each row of the property is selected as often as it occurs, and no
      other row is. */
  lemma PropertyRowsCount(metrics: seq<PropertyMetric>, propertyId: int)
    ensures forall m :: multiset(PropertyRows(metrics, propertyId))[m] ==
                        (if m.propertyId == propertyId then multiset(metrics)[m] else 0)
  {
    FilterCount(metrics, m => OfProperty(m, propertyId));
  }

  predicate SortedByMonthEnd(rows: seq<PropertyMetric>) {
    forall i, j :: 0 <= i < j < |rows| ==> AtOrBefore(rows[i].monthEnd, rows[j].monthEnd)
  }

  /** Places `x` after every row of `t` whose month end is not later than its own. */
  function Insert(x: PropertyMetric, t: seq<PropertyMetric>): (r: seq<PropertyMetric>)
    ensures |r| == |t| + 1
    ensures multiset(r) == multiset(t) + multiset{x}
  {
    if t == [] then [x]
    else if Before(x.monthEnd, t[0].monthEnd) then [x] + t
    else
      assert t == [t[0]] + t[1..];
      [t[0]] + Insert(x, t[1..])
  }

  lemma {:induction false} InsertKeepsSorted(x: PropertyMetric, t: seq<PropertyMetric>)
    requires SortedByMonthEnd(t)
    ensures SortedByMonthEnd(Insert(x, t))
  {
    if t == [] {
    } else if Before(x.monthEnd, t[0].monthEnd) {
      var r := [x] + t;
      assert Insert(x, t) == r;
      forall a, b | 0 <= a < b < |r| ensures AtOrBefore(r[a].monthEnd, r[b].monthEnd) {
        assert r[b] == t[b - 1];
        if a > 0 {
          assert r[a] == t[a - 1];
        }
      }
    } else {
      var tail := Insert(x, t[1..]);
      assert SortedByMonthEnd(t[1..]) by {
        forall a, b | 0 <= a < b < |t[1..]| ensures AtOrBefore(t[1..][a].monthEnd, t[1..][b].monthEnd) {
          assert t[1..][a] == t[a + 1] && t[1..][b] == t[b + 1];
        }
      }
      InsertKeepsSorted(x, t[1..]);
      var r := [t[0]] + tail;
      HeadPrecedesInsert(x, t);
      forall a, b | 0 <= a < b < |r| ensures AtOrBefore(r[a].monthEnd, r[b].monthEnd) {
        assert r[b] == tail[b - 1];
        if a > 0 {
          assert r[a] == tail[a - 1];
        }
      }
    }
  }

  /** Inserting a row no earlier than the head of sorted rows into their
      tail keeps everything at or after that head. */
  lemma HeadPrecedesInsert(x: PropertyMetric, t: seq<PropertyMetric>)
    requires SortedByMonthEnd(t) && t != [] && !Before(x.monthEnd, t[0].monthEnd)
    ensures forall k :: 0 <= k < |Insert(x, t[1..])| ==> AtOrBefore(t[0].monthEnd, Insert(x, t[1..])[k].monthEnd)
  {
    var tail := Insert(x, t[1..]);
    forall k | 0 <= k < |tail| ensures AtOrBefore(t[0].monthEnd, tail[k].monthEnd) {
      assert tail[k] in multiset(tail);
      assert tail[k] == x || tail[k] in multiset(t[1..]);
      if tail[k] != x {
        var p :| 0 <= p < |t[1..]| && t[1..][p] == tail[k];
        assert t[p + 1] == tail[k];
      }
    }
  }

  /** `sort_values(by="month_end")`: the same rows, reordered. */
  function SortByMonthEnd(rows: seq<PropertyMetric>): (r: seq<PropertyMetric>)
    ensures |r| == |rows|
    ensures multiset(r) == multiset(rows)
    decreases |rows|
  {
    if rows == [] then []
    else
      var n := |rows| - 1;
      assert rows == rows[..n] + [rows[n]];
      Insert(rows[n], SortByMonthEnd(rows[..n]))
  }

  /** The sorted rows are in ascending month-end order. */
  lemma {:induction false} SortIsSorted(rows: seq<PropertyMetric>)
    ensures SortedByMonthEnd(SortByMonthEnd(rows))
    decreases |rows|
  {
    if rows != [] {
      var n := |rows| - 1;
      var prev := SortByMonthEnd(rows[..n]);
      SortIsSorted(rows[..n]);
      InsertKeepsSorted(rows[n], prev);
      assert SortByMonthEnd(rows) == Insert(rows[n], prev);
    }
  }

  /** In ascending order, the last row's month end is the latest. */
  lemma SortedLastIsLatest(data: seq<PropertyMetric>)
    requires data != [] && SortedByMonthEnd(data)
    ensures forall m :: m in data ==> AtOrBefore(m.monthEnd, data[|data| - 1].monthEnd)
  {
    forall m | m in data ensures AtOrBefore(m.monthEnd, data[|data| - 1].monthEnd) {
      var p :| 0 <= p < |data| && data[p] == m;
      if p < |data| - 1 {
        assert AtOrBefore(data[p].monthEnd, data[|data| - 1].monthEnd);
      }
    }
  }

  /** The last of the sorted rows has the latest month end of all the rows. */
  lemma SortedLastIsMax(rows: seq<PropertyMetric>)
    requires rows != []
    ensures var data := SortByMonthEnd(rows);
      data[|data| - 1].monthEnd == MaxMonthEnd(rows)
  {
    var data := SortByMonthEnd(rows);
    SortIsSorted(rows);
    SortedLastIsLatest(data);
    var last := data[|data| - 1];
    var mx := MaxMonthEnd(rows);
    assert last in multiset(rows);
    var q :| 0 <= q < |rows| && rows[q] == last;
    var j :| 0 <= j < |rows| && rows[j].monthEnd == mx;
    assert rows[j] in multiset(data);
    assert AtOrBefore(mx, last.monthEnd);
    OrdinalInjective(mx, last.monthEnd);
  }

  /** The points of a series. */
  function Series(rows: seq<PropertyMetric>): (ps: seq<SeriesPoint>)
    ensures |ps| == |rows|
    ensures forall i :: 0 <= i < |rows| ==> ps[i] == SeriesPoint(rows[i].monthEnd, rows[i].totalRevenue)
  {
    seq(|rows|, i requires 0 <= i < |rows| => SeriesPoint(rows[i].monthEnd, rows[i].totalRevenue))
  }

  /** The rows handed to the renderer for a property are exactly that
      property's rows, as often as the table holds them, in ascending
      month-end order: a property with rows in fewer partitions gets a
      shorter series, not one padded out. */
  lemma RendererGetsPropertyHistory(metrics: seq<PropertyMetric>, propertyId: int)
    ensures var data := PropertyData(metrics, propertyId);
      && SortedByMonthEnd(data)
      && forall m :: multiset(data)[m] == (if m.propertyId == propertyId then multiset(metrics)[m] else 0)
  {
    SortIsSorted(PropertyRows(metrics, propertyId));
    PropertyRowsCount(metrics, propertyId);
  }

  /** The latest month end of some rows (`max()` of the column). */
  function MaxMonthEnd(rows: seq<PropertyMetric>): (d: Date)
    requires rows != []
    ensures exists i :: 0 <= i < |rows| && rows[i].monthEnd == d
    ensures forall i :: 0 <= i < |rows| ==> AtOrBefore(rows[i].monthEnd, d)
  {
    if |rows| == 1 then rows[0].monthEnd
    else
      var rest := MaxMonthEnd(rows[1..]);
      assert forall i :: 1 <= i < |rows| ==> rows[i] == rows[1..][i - 1];
      if Before(rest, rows[0].monthEnd) then rows[0].monthEnd else rest
  }

  /** The storage path of a chart: `{month_end:%Y/%m}/total_revenue_property_{id}.png`. */
  function ChartPath(monthEnd: Date, propertyId: int): string {
    NatToDecimal(monthEnd.year) + "/" + TwoDigits(monthEnd.month) + "/total_revenue_property_"
      + IntToDecimal(propertyId) + ".png"
  }

  /** A chart path reads as `%Y/%m/` of the month end -- the year's digits,
      a slash, the month's two digits, a slash -- followed by the property's
      file name. */
  lemma ChartPathFormat(monthEnd: Date, propertyId: int)
    ensures var path, n := ChartPath(monthEnd, propertyId), |NatToDecimal(monthEnd.year)|;
      && |path| > n + 3
      && (forall i :: 0 <= i < n ==> IsDigit(path[i]))
      && ParseDecimal(path[..n]) == monthEnd.year
      && path[n] == '/' && IsDigit(path[n + 1]) && IsDigit(path[n + 2]) && path[n + 3] == '/'
      && ParseDecimal(path[n + 1..n + 3]) == monthEnd.month
      && path[n + 4..] == "total_revenue_property_" + IntToDecimal(propertyId) + ".png"
  {
    var y, mm := NatToDecimal(monthEnd.year), TwoDigits(monthEnd.month);
    var rest := "total_revenue_property_" + IntToDecimal(propertyId) + ".png";
    var path := ChartPath(monthEnd, propertyId);
    ChartPathParts(monthEnd, propertyId);
    SlashSeparated(y, mm, rest);
    ParseNatToDecimal(monthEnd.year);
  }

  lemma ChartPathParts(monthEnd: Date, propertyId: int)
    ensures ChartPath(monthEnd, propertyId) == NatToDecimal(monthEnd.year)
      + ("/" + TwoDigits(monthEnd.month) + "/" + ("total_revenue_property_" + IntToDecimal(propertyId) + ".png"))
  {
    var y, mm, id := NatToDecimal(monthEnd.year), TwoDigits(monthEnd.month), IntToDecimal(propertyId);
    assert "/total_revenue_property_" == "/" + "total_revenue_property_";
    var path := ChartPath(monthEnd, propertyId);
    var rhs := y + ("/" + mm + "/" + ("total_revenue_property_" + id + ".png"));
    assert |path| == |rhs|;
    forall i | 0 <= i < |path| ensures path[i] == rhs[i] {
    }
  }

  /** Two chart paths are equal only for the same property and the same month:
      charts of different properties never overwrite each other. */
  lemma ChartPathInjective(d1: Date, p1: int, d2: Date, p2: int)
    requires ChartPath(d1, p1) == ChartPath(d2, p2)
    ensures p1 == p2 && d1.year == d2.year && d1.month == d2.month
  {
    var y1, y2 := NatToDecimal(d1.year), NatToDecimal(d2.year);
    var m1, m2 := TwoDigits(d1.month), TwoDigits(d2.month);
    SameFileName(d1, p1, d2, p2);
    assert y1 + "/" + m1 == (y1 + "/") + m1 && y2 + "/" + m2 == (y2 + "/") + m2;
    SplitSameLength(y1 + "/", m1, y2 + "/", m2);
    StripSuffix(y1, y2, "/");
    NatToDecimalInjective(d1.year, d2.year);
  }

  /** Equal chart paths name the same property and share the `%Y/%m` folder. */
  lemma SameFileName(d1: Date, p1: int, d2: Date, p2: int)
    requires ChartPath(d1, p1) == ChartPath(d2, p2)
    ensures p1 == p2
    ensures NatToDecimal(d1.year) + "/" + TwoDigits(d1.month) == NatToDecimal(d2.year) + "/" + TwoDigits(d2.month)
  {
    var y1, y2 := NatToDecimal(d1.year), NatToDecimal(d2.year);
    var m1, m2 := TwoDigits(d1.month), TwoDigits(d2.month);
    var k := "/total_revenue_property_";
    var a1, a2 := y1 + "/" + m1 + k, y2 + "/" + m2 + k;
    var b1, b2 := IntToDecimal(p1) + ".png", IntToDecimal(p2) + ".png";
    assert ChartPath(d1, p1) == a1 + b1 && ChartPath(d2, p2) == a2 + b2;
    assert a1[|a1| - 1] == '_' && a2[|a2| - 1] == '_';
    assert '_' !in b1 && '_' !in b2 by {
      assert forall i :: 0 <= i < |b1| ==> b1[i] != '_';
      assert forall i :: 0 <= i < |b2| ==> b2[i] != '_';
    }
    SplitAfterLastMarker(a1, b1, a2, b2, '_');
    StripSuffix(IntToDecimal(p1), IntToDecimal(p2), ".png");
    IntToDecimalInjective(p1, p2);
    StripSuffix(y1 + "/" + m1, y2 + "/" + m2, k);
  }

  /** The rows of one property in ascending month-end order. */
  function PropertyData(metrics: seq<PropertyMetric>, propertyId: int): seq<PropertyMetric> {
    SortByMonthEnd(PropertyRows(metrics, propertyId))
  }

  /** The month end of a property's latest row (`iloc[-1]` of its sorted rows). */
  function LatestMonthEnd(metrics: seq<PropertyMetric>, propertyId: int): Date
    requires propertyId in PropertyIds(metrics)
  {
    var data := PropertyData(metrics, propertyId);
    data[|data| - 1].monthEnd
  }

  /** The latest row of a property is one with the property's greatest month end. */
  lemma LatestIsMax(metrics: seq<PropertyMetric>, propertyId: int)
    requires propertyId in PropertyIds(metrics)
    ensures LatestMonthEnd(metrics, propertyId) == MaxMonthEnd(PropertyRows(metrics, propertyId))
  {
    var rows := PropertyRows(metrics, propertyId);
    assert rows != [];
    SortedLastIsMax(rows);
  }

  /** The chart path of a property present in the metrics. */
  function PathFor(metrics: seq<PropertyMetric>, propertyId: int): string
    requires propertyId in PropertyIds(metrics)
  {
    ChartPath(LatestMonthEnd(metrics, propertyId), propertyId)
  }

  /** The chart rendered for a property present in the metrics. */
  function ChartOf(metrics: seq<PropertyMetric>, propertyId: int, render: seq<SeriesPoint> -> Bytes): Bytes {
    render(Series(PropertyData(metrics, propertyId)))
  }

  /** The writes the stage makes for the properties `ids`, in order. */
  function ChartWrites(metrics: seq<PropertyMetric>, ids: seq<int>, render: seq<SeriesPoint> -> Bytes)
    : seq<FileWrite>
    requires forall id :: id in ids ==> id in PropertyIds(metrics)
  {
    seq(|ids|, i requires 0 <= i < |ids| => FileWrite(PathFor(metrics, ids[i]), ChartOf(metrics, ids[i], render)))
  }

  /** Every file the stage writes is the chart path of one of the properties,
      and every property gets its file. */
  lemma ChartFilesPaths(metrics: seq<PropertyMetric>, ids: seq<int>, render: seq<SeriesPoint> -> Bytes)
    requires forall id :: id in ids ==> id in PropertyIds(metrics)
    ensures forall path :: path in Written(ChartWrites(metrics, ids, render)) <==>
      exists i :: 0 <= i < |ids| && path == PathFor(metrics, ids[i])
  {
    var ws := ChartWrites(metrics, ids, render);
    WrittenPaths(ws);
    forall path | path in Written(ws) ensures exists i :: 0 <= i < |ids| && path == PathFor(metrics, ids[i]) {
      var i :| 0 <= i < |ws| && ws[i].path == path;
    }
    forall i | 0 <= i < |ids| ensures PathFor(metrics, ids[i]) in Written(ws) {
      assert ws[i].path == PathFor(metrics, ids[i]);
    }
  }

  /** Distinct properties have distinct chart paths. */
  lemma DistinctPaths(metrics: seq<PropertyMetric>, p1: int, p2: int)
    requires p1 in PropertyIds(metrics) && p2 in PropertyIds(metrics) && p1 != p2
    ensures PathFor(metrics, p1) != PathFor(metrics, p2)
  {
    var d1, d2 := LatestMonthEnd(metrics, p1), LatestMonthEnd(metrics, p2);
    if ChartPath(d1, p1) == ChartPath(d2, p2) {
      ChartPathInjective(d1, p1, d2, p2);
    }
  }

  /** Written for distinct properties, every chart file holds the rendering of
      its own property's series: no chart overwrites another. */
  lemma ChartFilesHoldTheirCharts(metrics: seq<PropertyMetric>, ids: seq<int>, render: seq<SeriesPoint> -> Bytes)
    requires forall id :: id in ids ==> id in PropertyIds(metrics)
    requires Distinct(ids)
    ensures forall i :: 0 <= i < |ids| ==>
      && PathFor(metrics, ids[i]) in Written(ChartWrites(metrics, ids, render))
      && Written(ChartWrites(metrics, ids, render))[PathFor(metrics, ids[i])] == ChartOf(metrics, ids[i], render)
  {
    var ws := ChartWrites(metrics, ids, render);
    forall i | 0 <= i < |ids|
      ensures PathFor(metrics, ids[i]) in Written(ws) && Written(ws)[PathFor(metrics, ids[i])] == ChartOf(metrics, ids[i], render)
    {
      forall j | i < j < |ws| ensures ws[j].path != ws[i].path {
        DistinctPaths(metrics, ids[i], ids[j]);
      }
      LastWriteWins(ws, i);
    }
  }

  /** After the stage, every property of the input has its chart under its
      own path. */
  lemma ChartStageFiles(metrics: seq<PropertyMetric>, render: seq<SeriesPoint> -> Bytes,
                        before: map<string, Bytes>, after: map<string, Bytes>)
    requires after == before + Written(ChartWrites(metrics, Unique(PropertyIds(metrics)), render))
    ensures forall p :: p in PropertyIds(metrics) ==>
      PathFor(metrics, p) in after && after[PathFor(metrics, p)] == ChartOf(metrics, p, render)
  {
    var ids := Unique(PropertyIds(metrics));
    ChartFilesHoldTheirCharts(metrics, ids, render);
    forall p | p in PropertyIds(metrics)
      ensures PathFor(metrics, p) in after && after[PathFor(metrics, p)] == ChartOf(metrics, p, render)
    {
      var i :| 0 <= i < |ids| && ids[i] == p;
    }
  }

  /** The stage changes no path other than its chart paths. */
  lemma ChartStageKeepsOtherFiles(metrics: seq<PropertyMetric>, render: seq<SeriesPoint> -> Bytes,
                                  before: map<string, Bytes>, after: map<string, Bytes>)
    requires after == before + Written(ChartWrites(metrics, Unique(PropertyIds(metrics)), render))
    ensures forall path :: (forall p :: p in PropertyIds(metrics) ==> path != PathFor(metrics, p)) ==>
      && (path in after <==> path in before)
      && (path in before ==> after[path] == before[path])
  {
    var ids := Unique(PropertyIds(metrics));
    var written := Written(ChartWrites(metrics, ids, render));
    ChartFilesPaths(metrics, ids, render);
    forall path | forall p :: p in PropertyIds(metrics) ==> path != PathFor(metrics, p)
      ensures path !in written
    {
      forall i | 0 <= i < |ids| ensures path != PathFor(metrics, ids[i]) {
        assert ids[i] in ids;
      }
    }
  }

  /** The `historical_bar_charts` table: a record per property of the input,
      in order of first appearance, naming its chart path and stamped with the
      latest month end of the whole input. */
  function ChartTable(metrics: seq<PropertyMetric>): (t: seq<ChartRecord>)
    ensures var ids := Unique(PropertyIds(metrics));
      && |t| == |ids|
      && forall i :: 0 <= i < |t| ==>
           && t[i].propertyId == ids[i]
           && t[i].totalRevenueChart == PathFor(metrics, ids[i])
           && t[i].monthEnd == MaxMonthEnd(metrics)
  {
    var ids := Unique(PropertyIds(metrics));
    if metrics == [] then []
    else seq(|ids|, i requires 0 <= i < |ids| => ChartRecord(ids[i], PathFor(metrics, ids[i]), MaxMonthEnd(metrics)))
  }

  /** There is exactly one chart record per distinct property of the input. */
  lemma OneRecordPerProperty(metrics: seq<PropertyMetric>)
    ensures var t := ChartTable(metrics);
      && (forall p :: p in PropertyIds(metrics) ==> exists i :: 0 <= i < |t| && t[i].propertyId == p)
      && (forall i :: 0 <= i < |t| ==> t[i].propertyId in PropertyIds(metrics))
      && (forall i, j :: 0 <= i < j < |t| ==> t[i].propertyId != t[j].propertyId)
  {
    var t, ids := ChartTable(metrics), Unique(PropertyIds(metrics));
    forall p | p in PropertyIds(metrics) ensures exists i :: 0 <= i < |t| && t[i].propertyId == p {
      var i :| 0 <= i < |ids| && ids[i] == p;
      assert t[i].propertyId == p;
    }
  }

  /** The (property, path) pairs the loop collects for the properties `ids`. */
  function PathPairs(metrics: seq<PropertyMetric>, ids: seq<int>): seq<(int, string)>
    requires forall id :: id in ids ==> id in PropertyIds(metrics)
  {
    seq(|ids|, j requires 0 <= j < |ids| => (ids[j], PathFor(metrics, ids[j])))
  }

  /** Stamping the collected (property, path) pairs with the input's latest
      month end gives the chart table. */
  lemma StampedPathsAreTable(metrics: seq<PropertyMetric>)
    requires metrics != []
    ensures var ids := Unique(PropertyIds(metrics));
      var pairs := PathPairs(metrics, ids);
      seq(|pairs|, j requires 0 <= j < |pairs| => ChartRecord(pairs[j].0, pairs[j].1, MaxMonthEnd(metrics)))
        == ChartTable(metrics)
  {
  }

  /** One pass of the stage's loop: the property's rows in month order are
      rendered and the image is written under the path naming the property's
      latest month. */
  method WriteChart(metrics: seq<PropertyMetric>, propertyId: int, render: seq<SeriesPoint> -> Bytes,
                    imageStorage: ImageStorage)
    returns (chartPath: string)
    requires propertyId in PropertyIds(metrics)
    modifies imageStorage
    ensures chartPath == PathFor(metrics, propertyId)
    ensures imageStorage.files == old(imageStorage.files)[chartPath := ChartOf(metrics, propertyId, render)]
  {
    var propertyData := PropertyData(metrics, propertyId);
    var chartBuffer := render(Series(propertyData));
    var lastMonthEnd := propertyData[|propertyData| - 1].monthEnd;
    chartPath := ChartPath(lastMonthEnd, propertyId);
    imageStorage.Write(chartPath, chartBuffer);
  }

  /** The loop of the stage over the properties `ids`: each property's chart
      is written in turn and its (property, path) pair collected. */
  method WriteCharts(metrics: seq<PropertyMetric>, ids: seq<int>, render: seq<SeriesPoint> -> Bytes,
                     imageStorage: ImageStorage)
    returns (chartPaths: seq<(int, string)>)
    requires forall id :: id in ids ==> id in PropertyIds(metrics)
    modifies imageStorage
    ensures chartPaths == PathPairs(metrics, ids)
    ensures imageStorage.files == old(imageStorage.files) + Written(ChartWrites(metrics, ids, render))
  {
    ghost var ws := ChartWrites(metrics, ids, render);
    ghost var pairs := PathPairs(metrics, ids);
    chartPaths := [];
    var i := 0;
    while i < |ids|
      invariant 0 <= i <= |ids|
      invariant chartPaths == pairs[..i]
      invariant imageStorage.files == old(imageStorage.files) + Written(ws[..i])
    {
      var propertyId := ids[i];
      assert ws[i] == FileWrite(PathFor(metrics, propertyId), ChartOf(metrics, propertyId, render));
      WrittenStep(old(imageStorage.files), ws, i);
      var chartPath := WriteChart(metrics, propertyId, render, imageStorage);
      assert (propertyId, chartPath) == pairs[i];
      PrefixSnoc(pairs, i);
      chartPaths := chartPaths + [(propertyId, chartPath)];
      i := i + 1;
    }
    assert chartPaths == pairs && ws[..i] == ws;
  }

  /** The stage itself: the loop over the distinct properties, in order of
      first appearance, followed by stamping all collected records with the
      input's latest month end. */
  method HistoricalBarCharts(metrics: seq<PropertyMetric>, render: seq<SeriesPoint> -> Bytes,
                             imageStorage: ImageStorage)
    returns (lineCharts: seq<ChartRecord>)
    modifies imageStorage
    ensures lineCharts == ChartTable(metrics)
    ensures imageStorage.files == old(imageStorage.files) + Written(ChartWrites(metrics, Unique(PropertyIds(metrics)), render))
  {
    var ids := Unique(PropertyIds(metrics));
    var chartPaths := WriteCharts(metrics, ids, render, imageStorage);
    if metrics == [] {
      lineCharts := [];
    } else {
      StampedPathsAreTable(metrics);
      var lastMonth := MaxMonthEnd(metrics);
      lineCharts := seq(|chartPaths|, j requires 0 <= j < |chartPaths| => ChartRecord(chartPaths[j].0, chartPaths[j].1, lastMonth));
    }
  }
}

=== FILE: Dispatch.dfy ===
/** The `send_emails` operation: the rows of `emails_to_send` whose month end
    lies in the partition's dispatch window each become one call of the mail
    service, carrying the row's chart image as a base64 attachment. */
module Dispatch {

  import opened Wrappers
  import opened Calendar
  import opened Tables
  import Base64
  import opened Storage
  import opened Seqs

  /** The template data of a mail: the host's name (`None` where the join
      found no host) and the property's revenue. */
  datatype Template = Template(name: Option<string>, revenue: int)

  /** An attachment; a missing chart path leaves `name` empty. */
  datatype Attachment = Attachment(name: Option<string>, content: string, contentType: string, contentId: string)

  /** One call of the mail client, with the sender and template id the service adds. */
  datatype Mail = Mail(sender: string, recipient: Option<string>, templateId: int,
                       template: Template, attachments: seq<Attachment>)

  /** The mail service; `outbox` records every call it passes to its client. */
  class EmailService {
    const templateId: int
    const senderEmail: string
    var outbox: seq<Mail>

    constructor (templateId: int, senderEmail: string)
      ensures this.templateId == templateId && this.senderEmail == senderEmail
      ensures outbox == []
    {
      this.templateId := templateId;
      this.senderEmail := senderEmail;
      outbox := [];
    }

    /** Passes one mail to the client, adding the sender and the template id. */
    method Send(recipient: Option<string>, template: Template, attachments: seq<Attachment>)
      modifies this
      ensures outbox == old(outbox) + [Mail(senderEmail, recipient, templateId, template, attachments)]
    {
      outbox := outbox + [Mail(senderEmail, recipient, templateId, template, attachments)];
    }
  }

  /** The dispatch window of partition `k`: after its start, up to and
      including its end. */
  predicate InDispatchWindow(d: Date, k: nat) {
    Before(PartitionStart(k), d) && AtOrBefore(d, PartitionEnd(k))
  }

  /** Whether a row belongs to partition `k`'s dispatch. */
  predicate Selected(e: EmailRow, k: nat) {
    InDispatchWindow(e.metric.monthEnd, k)
  }

  /** The rows of partition `k` to send, in their order. */
  function DispatchRows(emails: seq<EmailRow>, k: nat): (rows: seq<EmailRow>)
    ensures |rows| <= |emails|
    ensures forall e :: e in rows <==> e in emails && InDispatchWindow(e.metric.monthEnd, k)
  {
    Filter(emails, e => Selected(e, k))
  }

  /** The filter works row by row, in the table's order: a row in the window
      is kept once, a row outside it is dropped, and the rows selected from
      two parts of a table are those of the first part followed by those of
      the second. */
  lemma DispatchRowsByRow(a: seq<EmailRow>, b: seq<EmailRow>, e: EmailRow, k: nat)
    ensures DispatchRows([e], k) == if InDispatchWindow(e.metric.monthEnd, k) then [e] else []
    ensures DispatchRows(a + b, k) == DispatchRows(a, k) + DispatchRows(b, k)
  {
    FilterAppend(a, b, e => Selected(e, k));
    assert [e][1..] == [];
  }

  /** Each row in the window is sent as often as it occurs in the table, and
      no other row is sent. */
  lemma DispatchRowsCount(emails: seq<EmailRow>, k: nat)
    ensures forall e :: multiset(DispatchRows(emails, k))[e] ==
                        (if InDispatchWindow(e.metric.monthEnd, k) then multiset(emails)[e] else 0)
  {
    FilterCount(emails, e => Selected(e, k));
  }

  /** A table whose rows all lie in the window is sent whole, in order. */
  lemma DispatchRowsKeepsAll(emails: seq<EmailRow>, k: nat)
    requires forall e :: e in emails ==> InDispatchWindow(e.metric.monthEnd, k)
    ensures DispatchRows(emails, k) == emails
  {
    FilterKeepsAll(emails, e => Selected(e, k));
  }

  /** A row whose month end is the end of partition `j` is sent in partition
      `k` exactly when `j == k`: a month end at the window's start is left
      out, one at its end is taken. */
  lemma StampedRowSentOnce(emails: seq<EmailRow>, e: EmailRow, j: nat, k: nat)
    requires e in emails && e.metric.monthEnd == PartitionEnd(j)
    ensures e in DispatchRows(emails, k) <==> j == k
  {
    StampInDispatchWindow(j, k);
  }

  /** The chart path as the row holds it; a path the join did not find is
      NaN, which formats as `nan`. */
  function PathText(e: EmailRow): string {
    if e.totalRevenueChart.Some? then e.totalRevenueChart.value else "nan"
  }

  /** The mail of one row whose chart image holds `image`. */
  function MailFor(e: EmailRow, image: Bytes, sender: string, templateId: int): Mail {
    var recipient := if e.host.Some? then Some(e.host.value.email) else None;
    var name := if e.host.Some? then Some(e.host.value.name) else None;
    var path := PathText(e);
    Mail(sender, recipient, templateId, Template(name, e.metric.totalRevenue),
         [Attachment(e.totalRevenueChart, Base64.Encode(image), "image/png", "cid:" + path)])
  }

  /** The result of the loop: the mails sent, and the path whose read failed
      when one did, which ends the loop. */
  datatype Outcome = Outcome(sent: seq<Mail>, failedRead: Option<string>)

  /** The mails for `rows` sent one after the other, reading each chart from
      `files`, up to the first row whose chart file does not exist. */
  function Dispatched(rows: seq<EmailRow>, files: map<string, Bytes>, sender: string, templateId: int)
    : (out: Outcome)
    ensures out.failedRead.None? <==> forall i :: 0 <= i < |rows| ==> PathText(rows[i]) in files
    ensures out.failedRead.None? ==> |out.sent| == |rows|
    ensures out.failedRead.Some? ==>
      && |out.sent| < |rows|
      && out.failedRead.value == PathText(rows[|out.sent|])
      && out.failedRead.value !in files
    ensures forall i :: 0 <= i < |out.sent| ==>
      && PathText(rows[i]) in files
      && out.sent[i] == MailFor(rows[i], files[PathText(rows[i])], sender, templateId)
    decreases |rows|
  {
    if rows == [] then Outcome([], None)
    else
      var n := |rows| - 1;
      var prev := Dispatched(rows[..n], files, sender, templateId);
      assert forall i :: 0 <= i < n ==> rows[..n][i] == rows[i];
      if prev.failedRead.Some? then prev
      else
        var path := PathText(rows[n]);
        if path in files then Outcome(prev.sent + [MailFor(rows[n], files[path], sender, templateId)], None)
        else Outcome(prev.sent, Some(path))
  }

  /** Every mail's attachment decodes back to the bytes of the chart file it
      was read from. */
  lemma AttachmentsCarryTheCharts(rows: seq<EmailRow>, files: map<string, Bytes>, sender: string, templateId: int)
    ensures var out := Dispatched(rows, files, sender, templateId);
      forall i :: 0 <= i < |out.sent| ==>
        && |out.sent[i].attachments| == 1
        && Base64.Decode(out.sent[i].attachments[0].content) == Some(files[PathText(rows[i])])
        && out.sent[i].attachments[0].contentId == "cid:" + PathText(rows[i])
  {
    var out := Dispatched(rows, files, sender, templateId);
    forall i | 0 <= i < |out.sent|
      ensures Base64.Decode(out.sent[i].attachments[0].content) == Some(files[PathText(rows[i])])
    {
      Base64.RoundTrip(files[PathText(rows[i])]);
    }
  }

  /** The mail of a row goes to the host's address (to nobody when the row
      has no host), greets the host by name with the row's revenue, and
      carries one PNG attachment that decodes back to the chart image and is
      named and referenced by the row's chart path. */
  lemma MailCarriesRow(e: EmailRow, image: Bytes, sender: string, templateId: int)
    ensures var m := MailFor(e, image, sender, templateId);
      && m.sender == sender && m.templateId == templateId
      && (m.recipient.Some? <==> e.host.Some?)
      && (e.host.Some? ==> m.recipient == Some(e.host.value.email) && m.template.name == Some(e.host.value.name))
      && m.template.revenue == e.metric.totalRevenue
      && |m.attachments| == 1
      && Base64.Decode(m.attachments[0].content) == Some(image)
      && m.attachments[0].contentType == "image/png"
      && m.attachments[0].name == e.totalRevenueChart
      && m.attachments[0].contentId == "cid:" + PathText(e)
  {
    Base64.RoundTrip(image);
  }

  /** A row without a chart (no match in the join) has the path "nan": its
      read looks for a file of that name, and when none exists the dispatch
      stops there, reporting "nan"; when one does, the mail references
      "cid:nan" and its attachment has no name. */
  lemma UnmatchedChartReadsNan(e: EmailRow, files: map<string, Bytes>, sender: string, templateId: int)
    requires e.totalRevenueChart.None?
    ensures PathText(e) == "nan"
    ensures "nan" !in files ==> Dispatched([e], files, sender, templateId) == Outcome([], Some("nan"))
    ensures "nan" in files ==>
      && Dispatched([e], files, sender, templateId).failedRead.None?
      && Dispatched([e], files, sender, templateId).sent[0].attachments[0].contentId == "cid:nan"
      && Dispatched([e], files, sender, templateId).sent[0].attachments[0].name.None?
  {
    assert [e][..0] == [];
  }

  /** The operation itself: for every row of the partition's dispatch window,
      in order, the chart is read from storage, encoded and sent.  A read of a
      missing file raises and ends the operation; the path is returned then. */
  method SendEmails(k: nat, emails: seq<EmailRow>, emailService: EmailService, imageStorage: ImageStorage)
    returns (failedRead: Option<string>)
    modifies emailService
    ensures var out := Dispatched(DispatchRows(emails, k), imageStorage.files,
                                  emailService.senderEmail, emailService.templateId);
      && emailService.outbox == old(emailService.outbox) + out.sent
      && failedRead == out.failedRead
  {
    var rows := DispatchRows(emails, k);
    ghost var files := imageStorage.files;
    ghost var sender, templateId := emailService.senderEmail, emailService.templateId;
    var i := 0;
    while i < |rows|
      invariant 0 <= i <= |rows|
      invariant Dispatched(rows[..i], files, sender, templateId).failedRead.None?
      invariant emailService.outbox == old(emailService.outbox) + Dispatched(rows[..i], files, sender, templateId).sent
    {
      var row := rows[i];
      var path := PathText(row);
      var image := imageStorage.Read(path);
      assert rows[..i + 1][..i] == rows[..i];
      if image.None? {
        assert Dispatched(rows[..i + 1], files, sender, templateId) == Outcome(Dispatched(rows[..i], files, sender, templateId).sent, Some(path));
        DispatchedStops(rows, i, files, sender, templateId);
        return Some(path);
      }
      var encoded := Base64.Encode(image.value);
      var recipient := if row.host.Some? then Some(row.host.value.email) else None;
      var name := if row.host.Some? then Some(row.host.value.name) else None;
      emailService.Send(recipient, Template(name, row.metric.totalRevenue),
                        [Attachment(row.totalRevenueChart, encoded, "image/png", "cid:" + path)]);
      i := i + 1;
    }
    assert rows[..i] == rows;
    return None;
  }

  /** Once a read has failed, later rows change nothing. */
  lemma {:induction false} DispatchedStops(rows: seq<EmailRow>, i: nat, files: map<string, Bytes>, sender: string, templateId: int)
    requires i < |rows|
    requires Dispatched(rows[..i + 1], files, sender, templateId).failedRead.Some?
    ensures Dispatched(rows, files, sender, templateId) == Dispatched(rows[..i + 1], files, sender, templateId)
    decreases |rows| - i
  {
    if i + 1 < |rows| {
      assert rows[..i + 2][..i + 1] == rows[..i + 1];
      DispatchedStops(rows, i + 1, files, sender, templateId);
    } else {
      assert rows[..i + 1] == rows;
    }
  }
}

=== FILE: Extraction.dfy ===
/** The `monthly_reservations` stage: the reservations whose end date falls in
    the partition's window, each with its guest-to-property distance and
    stamped with the partition's end. */
module Extraction {

  import opened Wrappers
  import opened Calendar
  import opened Tables
  import opened Seqs

  /** The errors of the stage: the exception the distance computation raises
      when a coordinate is missing (a join that found no property or no guest
      leaves NaN there), and the one raised when the window holds no rows:
      `apply` on an empty frame returns a copy of the whole frame, which cannot
      be assigned to the single column `dist`. */
  datatype DataError = MissingCoordinates(reservationId: int) | EmptyWindow

  /** Whether a query row's end date lies in the window of partition `k`. */
  predicate InPartition(r: QueryRow, k: nat) {
    InWindow(r.endDate, k)
  }

  /** The query's `WHERE r.end_date >= start AND r.end_date < end`, keeping the
      rows' order. */
  function Windowed(rows: seq<QueryRow>, k: nat): (w: seq<QueryRow>)
    ensures |w| <= |rows|
    ensures forall r :: r in w <==> r in rows && InWindow(r.endDate, k)
  {
    Filter(rows, r => InPartition(r, k))
  }

  /** The window works row by row, in the rows' order: one row is kept
      exactly when its end date is in the window, and the window of two parts
      is that of the first followed by that of the second. */
  lemma WindowedByRow(a: seq<QueryRow>, b: seq<QueryRow>, r: QueryRow, k: nat)
    ensures Windowed([r], k) == if InWindow(r.endDate, k) then [r] else []
    ensures Windowed(a + b, k) == Windowed(a, k) + Windowed(b, k)
  {
    FilterAppend(a, b, r => InPartition(r, k));
    assert [r][1..] == [];
  }

  /** Each row in the window is kept as many times as the query returned it,
      and no other row is kept. */
  lemma WindowedCount(rows: seq<QueryRow>, k: nat)
    ensures forall r :: multiset(Windowed(rows, k))[r] == (if InWindow(r.endDate, k) then multiset(rows)[r] else 0)
  {
    FilterCount(rows, r => InPartition(r, k));
  }

  /** Whether both sides of the joins were found, so that both coordinates exist. */
  predicate Complete(r: QueryRow) {
    r.property.Some? && r.guest.Some?
  }

  /** A complete row with its distance (property first, guest second) and
      the window end of partition `k` as `month_end`. */
  function Locate(r: QueryRow, k: nat, geodesicMiles: (Point, Point) -> real): Reservation
    requires Complete(r)
  {
    var p := r.property.value;
    Reservation(r.id, r.propertyId, r.guestId, r.totalCost, p.hostId, p.marketName,
                geodesicMiles(p.location, r.guest.value.location), PartitionEnd(k))
  }

  /** The row-by-row distance column: the first incomplete row raises. */
  function WithDistance(w: seq<QueryRow>, k: nat, geodesicMiles: (Point, Point) -> real)
    : (res: Result<seq<Reservation>, DataError>)
    ensures res.Success? <==> forall i :: 0 <= i < |w| ==> Complete(w[i])
    ensures res.Success? ==>
      && |res.value| == |w|
      && forall i :: 0 <= i < |w| ==> res.value[i] == Locate(w[i], k, geodesicMiles)
    ensures res.Failure? ==>
      exists i :: 0 <= i < |w| && !Complete(w[i]) && res.error == MissingCoordinates(w[i].id)
                  && forall j :: 0 <= j < i ==> Complete(w[j])
  {
    if w == [] then Success([])
    else if !Complete(w[0]) then Failure(MissingCoordinates(w[0].id))
    else
      match WithDistance(w[1..], k, geodesicMiles)
      case Failure(e) =>
        assert forall i :: 1 <= i < |w| ==> w[i] == w[1..][i - 1];
        Failure(e)
      case Success(tail) => Success([Locate(w[0], k, geodesicMiles)] + tail)
  }

  /** The `monthly_reservations` table of partition `k`, computed from the
      query's joined rows; `geodesicMiles` is the distance collaborator. */
  function MonthlyReservations(rows: seq<QueryRow>, k: nat, geodesicMiles: (Point, Point) -> real)
    : (res: Result<seq<Reservation>, DataError>)
    ensures var w := Windowed(rows, k);
      && (res.Failure? <==> w == [] || exists i :: 0 <= i < |w| && !Complete(w[i]))
      && (res.Failure? && w == [] ==> res.error == EmptyWindow)
      && (res.Success? ==>
            && 0 < |res.value| == |w|
            && forall i :: 0 <= i < |w| ==> res.value[i] == Locate(w[i], k, geodesicMiles))
  {
    var w := Windowed(rows, k);
    if w == [] then Failure(EmptyWindow) else WithDistance(w, k, geodesicMiles)
  }

  /** The extraction keeps exactly the rows whose end date lies in the window
      `[start, end)` of partition `k` -- those whose date is in the partition's
      month -- and stamps every one of them with `month_end == end`. */
  lemma {:induction false} ExtractionKeepsWindow(rows: seq<QueryRow>, k: nat, geodesicMiles: (Point, Point) -> real)
    requires MonthlyReservations(rows, k, geodesicMiles).Success?
    ensures var out := MonthlyReservations(rows, k, geodesicMiles).value;
      && (forall r :: r in out ==> r.monthEnd == PartitionEnd(k))
      && (forall q :: q in rows && MonthIndex(q.endDate) == k ==> Complete(q) && Locate(q, k, geodesicMiles) in out)
      && (forall r :: r in out ==>
            exists q :: q in rows && MonthIndex(q.endDate) == k && Complete(q) && r == Locate(q, k, geodesicMiles))
  {
    var w := Windowed(rows, k);
    var out := MonthlyReservations(rows, k, geodesicMiles).value;
    forall q | q in rows && MonthIndex(q.endDate) == k
      ensures Complete(q) && Locate(q, k, geodesicMiles) in out
    {
      InWindowIff(q.endDate, k);
      var i :| 0 <= i < |w| && w[i] == q;
      assert out[i] == Locate(q, k, geodesicMiles);
    }
    forall r | r in out
      ensures exists q :: q in rows && MonthIndex(q.endDate) == k && Complete(q) && r == Locate(q, k, geodesicMiles)
    {
      var i :| 0 <= i < |out| && out[i] == r;
      InWindowIff(w[i].endDate, k);
      assert w[i] in w;
    }
  }

  /** The extraction fails exactly when the window holds no row, or a row
      inside the window lacks its property or its guest; rows outside the
      window never make it fail. */
  lemma ExtractionFailsOnlyInWindow(rows: seq<QueryRow>, k: nat, geodesicMiles: (Point, Point) -> real)
    ensures MonthlyReservations(rows, k, geodesicMiles).Failure?
        <==> (forall q :: q in rows ==> !InWindow(q.endDate, k))
             || exists q :: q in rows && InWindow(q.endDate, k) && !Complete(q)
  {
    var w := Windowed(rows, k);
    if exists q :: q in rows && InWindow(q.endDate, k) && !Complete(q) {
      var q :| q in rows && InWindow(q.endDate, k) && !Complete(q);
      assert q in w;
    }
    if w != [] {
      assert w[0] in w;
    }
  }
}

=== FILE: Join.dfy ===
/** The `emails_to_send` stage: the metrics of the partition joined to the
    host directory and to the chart records, both as pandas left merges. */
module Join {

  import opened Wrappers
  import opened Tables
  import opened Seqs

  /** The right rows whose key is `k`, in the right table's order. */
  function Matches<R(!new), K(==)>(right: seq<R>, rkey: R -> K, k: K): (ms: seq<R>)
    ensures |ms| <= |right|
    ensures forall r :: r in ms <==> r in right && rkey(r) == k
  {
    Filter(right, r => rkey(r) == k)
  }

  /** The matches of a key follow the right table row by row: one row matches
      exactly when it has the key, and the matches in two parts of the table
      are those of the first followed by those of the second. */
  lemma MatchesByRow<R(!new), K>(a: seq<R>, b: seq<R>, r: R, rkey: R -> K, k: K)
    ensures Matches([r], rkey, k) == if rkey(r) == k then [r] else []
    ensures Matches(a + b, rkey, k) == Matches(a, rkey, k) + Matches(b, rkey, k)
  {
    FilterAppend(a, b, r => rkey(r) == k);
    assert [r][1..] == [];
  }

  /** Each right row with the key is matched as many times as the right
      table holds it, and no other row is. */
  lemma MatchesCount<R(!new), K>(right: seq<R>, rkey: R -> K, k: K)
    ensures forall r :: multiset(Matches(right, rkey, k))[r] == (if rkey(r) == k then multiset(right)[r] else 0)
  {
    FilterCount(right, r => rkey(r) == k);
  }

  /** The output rows of one left row: one per match, or one without a
      partner when there is no match. */
  function Paired<L, R(!new), K(==)>(l: L, right: seq<R>, lkey: L -> K, rkey: R -> K): (ps: seq<(L, Option<R>)>)
    ensures ps != []
  {
    var ms := Matches(right, rkey, lkey(l));
    if ms == [] then [(l, None)]
    else seq(|ms|, i requires 0 <= i < |ms| => (l, Some(ms[i])))
  }

  /** A pandas `merge(how="left")`: the left rows in order, each followed by
      its matches in the right table's order, or kept once without a partner. */
  function LeftJoin<L, R(!new), K(==)>(left: seq<L>, right: seq<R>, lkey: L -> K, rkey: R -> K)
    : (out: seq<(L, Option<R>)>)
    ensures |out| >= |left|
  {
    FlatMap(left, l => Paired(l, right, lkey, rkey))
  }

  /** A left merge works row by row, in the left table's order: one left row
      yields its matches in the right table's order, or itself once without a
      partner when there is none, and the merge of two parts of the left
      table is that of the first part followed by that of the second. */
  lemma {:induction false} LeftJoinByRow<L, R(!new), K>(a: seq<L>, b: seq<L>, l: L, right: seq<R>, lkey: L -> K, rkey: R -> K)
    ensures var one, ms := LeftJoin([l], right, lkey, rkey), Matches(right, rkey, lkey(l));
      && (ms == [] ==> one == [(l, None)])
      && (ms != [] ==> |one| == |ms| && forall i :: 0 <= i < |ms| ==> one[i] == (l, Some(ms[i])))
    ensures LeftJoin(a + b, right, lkey, rkey) == LeftJoin(a, right, lkey, rkey) + LeftJoin(b, right, lkey, rkey)
  {
    var f := x => Paired(x, right, lkey, rkey);
    assert [l][1..] == [];
    assert FlatMap([l], f) == f(l) + FlatMap([], f);
    LeftJoinAppend(a, b, right, lkey, rkey);
  }

  lemma LeftJoinAppend<L, R(!new), K>(a: seq<L>, b: seq<L>, right: seq<R>, lkey: L -> K, rkey: R -> K)
    ensures LeftJoin(a + b, right, lkey, rkey) == LeftJoin(a, right, lkey, rkey) + LeftJoin(b, right, lkey, rkey)
  {
    FlatMapAppend(a, b, l => Paired(l, right, lkey, rkey));
  }

  /** No two rows of `right` share a key. */
  predicate UniqueKeys<R(!new), K(==)>(right: seq<R>, rkey: R -> K) {
    forall i, j :: 0 <= i < j < |right| ==> rkey(right[i]) != rkey(right[j])
  }

  /** A key no row carries has no match. */
  lemma NoMatches<R(!new), K>(right: seq<R>, rkey: R -> K, k: K)
    requires forall r :: r in right ==> rkey(r) != k
    ensures Matches(right, rkey, k) == []
  {
    if right != [] {
      NoMatches(right[1..], rkey, k);
    }
  }

  /** With unique keys, a key has at most one match. */
  lemma {:induction false} AtMostOneMatch<R(!new), K>(right: seq<R>, rkey: R -> K, k: K)
    requires UniqueKeys(right, rkey)
    ensures |Matches(right, rkey, k)| <= 1
  {
    if right != [] {
      var tail := right[1..];
      assert UniqueKeys(tail, rkey) by {
        forall i, j | 0 <= i < j < |tail| ensures rkey(tail[i]) != rkey(tail[j]) {
          assert tail[i] == right[i + 1] && tail[j] == right[j + 1];
        }
      }
      AtMostOneMatch(tail, rkey, k);
      if rkey(right[0]) == k {
        forall r | r in tail ensures rkey(r) != k {
          var j :| 0 <= j < |tail| && tail[j] == r;
          assert right[j + 1] == r;
        }
        NoMatches(tail, rkey, k);
      }
    }
  }

  /** Every row of a left join carries a left row and, when it has one, a
      right row with the same key. */
  lemma {:induction false} LeftJoinPairsMatch<L(!new), R(!new), K>(left: seq<L>, right: seq<R>, lkey: L -> K, rkey: R -> K)
    ensures forall p :: p in LeftJoin(left, right, lkey, rkey) ==>
      && p.0 in left
      && (p.1.Some? ==> p.1.value in right && rkey(p.1.value) == lkey(p.0))
      && (p.1.None? ==> forall r :: r in right ==> rkey(r) != lkey(p.0))
  {
    if left != [] {
      LeftJoinPairsMatch(left[1..], right, lkey, rkey);
      var head := Paired(left[0], right, lkey, rkey);
      var ms := Matches(right, rkey, lkey(left[0]));
      forall p | p in head
        ensures p.0 == left[0]
        ensures p.1.Some? ==> p.1.value in right && rkey(p.1.value) == lkey(p.0)
        ensures p.1.None? ==> forall r :: r in right ==> rkey(r) != lkey(p.0)
      {
        if ms != [] {
          var i :| 0 <= i < |head| && head[i] == p;
          assert ms[i] in ms;
        }
      }
    }
  }

  /** Against a right table with unique keys, one left row yields exactly one
      row, with a partner exactly when the right table holds its key. */
  lemma PairedOne<L, R(!new), K>(l: L, right: seq<R>, lkey: L -> K, rkey: R -> K)
    requires UniqueKeys(right, rkey)
    ensures var head := Paired(l, right, lkey, rkey);
      && |head| == 1 && head[0].0 == l
      && (head[0].1.Some? <==> exists r :: r in right && rkey(r) == lkey(l))
      && (head[0].1.Some? ==> head[0].1.value in right && rkey(head[0].1.value) == lkey(l))
  {
    var ms := Matches(right, rkey, lkey(l));
    AtMostOneMatch(right, rkey, lkey(l));
    if ms != [] {
      assert ms[0] in ms;
    }
  }

  /** Against a right table with unique keys, a left join keeps the left rows
      one for one and in order, and a row finds a partner exactly when the
      right table holds its key. */
  lemma {:induction false} LeftJoinOneToOne<L(!new), R(!new), K>(left: seq<L>, right: seq<R>, lkey: L -> K, rkey: R -> K)
    requires UniqueKeys(right, rkey)
    ensures var out := LeftJoin(left, right, lkey, rkey);
      && |out| == |left|
      && forall i :: 0 <= i < |left| ==>
           && out[i].0 == left[i]
           && (out[i].1.Some? <==> exists r :: r in right && rkey(r) == lkey(left[i]))
           && (out[i].1.Some? ==> out[i].1.value in right && rkey(out[i].1.value) == lkey(left[i]))
  {
    if left != [] {
      var out, tail := LeftJoin(left, right, lkey, rkey), LeftJoin(left[1..], right, lkey, rkey);
      LeftJoinOneToOne(left[1..], right, lkey, rkey);
      PairedOne(left[0], right, lkey, rkey);
      var head := Paired(left[0], right, lkey, rkey);
      assert out == head + tail;
      forall i | 1 <= i < |left|
        ensures out[i] == tail[i - 1] && left[i] == left[1..][i - 1]
      {
      }
    }
  }

  /** The host directory's `id` column and the key the metrics join it on. */
  function HostId(h: Host): int { h.id }
  function MetricHostId(m: PropertyMetric): int { m.hostId }

  /** The join key of the second merge, `(property_id, month_end)`. */
  function ChartKey(c: ChartRecord): (int, Calendar.Date) { (c.propertyId, c.monthEnd) }
  function HostedKey(p: (PropertyMetric, Option<Host>)): (int, Calendar.Date) {
    (p.0.propertyId, p.0.monthEnd)
  }

  /** A row of the second merge as a row of the `emails_to_send` table. */
  function ToEmailRow(p: ((PropertyMetric, Option<Host>), Option<ChartRecord>)): (e: EmailRow)
    ensures e.metric == p.0.0 && e.host == p.0.1
    ensures e.totalRevenueChart.Some? <==> p.1.Some?
    ensures p.1.Some? ==> e.totalRevenueChart.value == p.1.value.totalRevenueChart
  {
    EmailRow(p.0.0, p.0.1, if p.1.Some? then Some(p.1.value.totalRevenueChart) else None)
  }

  /** The `emails_to_send` table of a partition. */
  function EmailsToSend(metrics: seq<PropertyMetric>, hosts: seq<Host>, charts: seq<ChartRecord>)
    : (emails: seq<EmailRow>)
    ensures |emails| >= |metrics|
  {
    var withHosts := LeftJoin(metrics, hosts, MetricHostId, HostId);
    ToEmailRows(LeftJoin(withHosts, charts, HostedKey, ChartKey))
  }

  /** The rows of the second merge as rows of the `emails_to_send` table. */
  function ToEmailRows(merged: seq<((PropertyMetric, Option<Host>), Option<ChartRecord>)>): (emails: seq<EmailRow>)
    ensures |emails| == |merged| && forall i :: 0 <= i < |merged| ==> emails[i] == ToEmailRow(merged[i])
  {
    seq(|merged|, i requires 0 <= i < |merged| => ToEmailRow(merged[i]))
  }

  lemma ToEmailRowsAppend(x: seq<((PropertyMetric, Option<Host>), Option<ChartRecord>)>,
                          y: seq<((PropertyMetric, Option<Host>), Option<ChartRecord>)>)
    ensures ToEmailRows(x + y) == ToEmailRows(x) + ToEmailRows(y)
  {
    var u, v := ToEmailRows(x + y), ToEmailRows(x) + ToEmailRows(y);
    forall i | 0 <= i < |u| ensures u[i] == v[i] {
      if i < |x| {
        assert (x + y)[i] == x[i];
      } else {
        assert (x + y)[i] == y[i - |x|];
      }
    }
  }

  /** The table is built metric by metric, in order: the table of two parts
      of the metrics is that of the first part followed by that of the
      second. */
  lemma EmailsToSendAppend(a: seq<PropertyMetric>, b: seq<PropertyMetric>, hosts: seq<Host>, charts: seq<ChartRecord>)
    ensures EmailsToSend(a + b, hosts, charts) == EmailsToSend(a, hosts, charts) + EmailsToSend(b, hosts, charts)
  {
    var wa, wb := LeftJoin(a, hosts, MetricHostId, HostId), LeftJoin(b, hosts, MetricHostId, HostId);
    LeftJoinAppend(a, b, hosts, MetricHostId, HostId);
    LeftJoinAppend(wa, wb, charts, HostedKey, ChartKey);
    ToEmailRowsAppend(LeftJoin(wa, charts, HostedKey, ChartKey), LeftJoin(wb, charts, HostedKey, ChartKey));
  }

  /** One metric yields at least one row, and every row of it carries that
      metric. */
  lemma EmailsForOneMetric(m: PropertyMetric, hosts: seq<Host>, charts: seq<ChartRecord>)
    ensures var one := EmailsToSend([m], hosts, charts);
      && |one| >= 1
      && forall e :: e in one ==> e.metric == m
  {
    var w := LeftJoin([m], hosts, MetricHostId, HostId);
    var merged := LeftJoin(w, charts, HostedKey, ChartKey);
    LeftJoinPairsMatch([m], hosts, MetricHostId, HostId);
    LeftJoinPairsMatch(w, charts, HostedKey, ChartKey);
    forall e | e in EmailsToSend([m], hosts, charts) ensures e.metric == m {
      var i :| 0 <= i < |merged| && ToEmailRows(merged)[i] == e;
      assert merged[i] in merged;
      assert merged[i].0 in w;
    }
  }

  /** With a host directory keyed by id and chart records keyed by property
      and month, the table has one row per metric, in order, holding that
      metric's host and chart path when they exist. */
  lemma EmailsOnePerMetric(metrics: seq<PropertyMetric>, hosts: seq<Host>, charts: seq<ChartRecord>)
    requires UniqueKeys(hosts, HostId)
    requires UniqueKeys(charts, ChartKey)
    ensures var emails := EmailsToSend(metrics, hosts, charts);
      && |emails| == |metrics|
      && forall i :: 0 <= i < |metrics| ==>
           && emails[i].metric == metrics[i]
           && (emails[i].host.Some? <==> exists h :: h in hosts && h.id == metrics[i].hostId)
           && (emails[i].host.Some? ==> emails[i].host.value in hosts && emails[i].host.value.id == metrics[i].hostId)
           && (emails[i].totalRevenueChart.Some? <==>
                 exists c :: c in charts && c.propertyId == metrics[i].propertyId && c.monthEnd == metrics[i].monthEnd)
  {
    var withHosts := LeftJoin(metrics, hosts, MetricHostId, HostId);
    var merged := LeftJoin(withHosts, charts, HostedKey, ChartKey);
    LeftJoinOneToOne(metrics, hosts, MetricHostId, HostId);
    LeftJoinOneToOne(withHosts, charts, HostedKey, ChartKey);
    var emails := EmailsToSend(metrics, hosts, charts);
    forall i | 0 <= i < |metrics|
      ensures (emails[i].totalRevenueChart.Some? <==>
                 exists c :: c in charts && c.propertyId == metrics[i].propertyId && c.monthEnd == metrics[i].monthEnd)
    {
      assert emails[i] == ToEmailRow(merged[i]);
      assert HostedKey(withHosts[i]) == (metrics[i].propertyId, metrics[i].monthEnd);
      if emails[i].totalRevenueChart.Some? {
        var c := merged[i].1.value;
        assert ChartKey(c) == HostedKey(withHosts[i]);
      }
      forall c | c in charts && c.propertyId == metrics[i].propertyId && c.monthEnd == metrics[i].monthEnd
        ensures ChartKey(c) == HostedKey(withHosts[i])
      {
      }
    }
  }

  /** With chart records keyed by property and month, a row's chart path is
      the one of the record with its metric's property and month. */
  lemma EmailChartIsTheMatch(metrics: seq<PropertyMetric>, hosts: seq<Host>, charts: seq<ChartRecord>)
    requires UniqueKeys(hosts, HostId)
    requires UniqueKeys(charts, ChartKey)
    ensures var emails := EmailsToSend(metrics, hosts, charts);
      |emails| == |metrics| &&
      forall i, c :: 0 <= i < |metrics| && c in charts && c.propertyId == metrics[i].propertyId
                     && c.monthEnd == metrics[i].monthEnd ==>
        emails[i].totalRevenueChart == Some(c.totalRevenueChart)
  {
    var withHosts := LeftJoin(metrics, hosts, MetricHostId, HostId);
    var merged := LeftJoin(withHosts, charts, HostedKey, ChartKey);
    LeftJoinOneToOne(metrics, hosts, MetricHostId, HostId);
    LeftJoinOneToOne(withHosts, charts, HostedKey, ChartKey);
    var emails := EmailsToSend(metrics, hosts, charts);
    forall i, c | 0 <= i < |metrics| && c in charts && c.propertyId == metrics[i].propertyId
                  && c.monthEnd == metrics[i].monthEnd
      ensures emails[i].totalRevenueChart == Some(c.totalRevenueChart)
    {
      assert emails[i] == ToEmailRow(merged[i]);
      assert ChartKey(c) == HostedKey(withHosts[i]);
      var d := merged[i].1.value;
      assert ChartKey(d) == ChartKey(c);
      var x :| 0 <= x < |charts| && charts[x] == c;
      var y :| 0 <= y < |charts| && charts[y] == d;
      assert x == y;
    }
  }

  /** Chart records of distinct properties have distinct join keys. */
  lemma ChartTableKeysUnique(charts: seq<ChartRecord>)
    requires forall i, j :: 0 <= i < j < |charts| ==> charts[i].propertyId != charts[j].propertyId
    ensures UniqueKeys(charts, ChartKey)
  {
  }
}

=== FILE: Pipeline.dfy ===
/** How the stages connect across partitions: the chart stage of partition
    `k` reads the `property_analytics` tables of `k` and up to four partitions
    before it, and the emails of partition `k` join that partition's metrics
    to the charts of the same partition. */
module Pipeline {

  import opened Wrappers
  import opened Calendar
  import opened Tables
  import opened Extraction
  import opened Aggregation
  import opened Charts
  import opened Join
  import opened Dispatch
  import opened Seqs

  /** The `property_analytics` tables of the partitions `ks`, one after the other. */
  function Concat(analytics: nat -> seq<PropertyMetric>, ks: seq<nat>): (rows: seq<PropertyMetric>)
    ensures forall m :: m in rows <==> exists i :: 0 <= i < |ks| && m in analytics(ks[i])
  {
    if ks == [] then []
    else
      var rest := Concat(analytics, ks[1..]);
      assert forall i :: 1 <= i < |ks| ==> ks[i] == ks[1..][i - 1];
      analytics(ks[0]) + rest
  }

  /** Loading works partition by partition, in the order given: one partition
      contributes its table as stored, and the tables of two runs of
      partitions are those of the first followed by those of the second. */
  lemma {:induction false} ConcatByRow(analytics: nat -> seq<PropertyMetric>, ks: seq<nat>, ls: seq<nat>, j: nat)
    ensures Concat(analytics, [j]) == analytics(j)
    ensures Concat(analytics, ks + ls) == Concat(analytics, ks) + Concat(analytics, ls)
  {
    assert [j][1..] == [];
    assert Concat(analytics, [j]) == analytics(j) + [];
    if ks == [] {
      assert ks + ls == ls;
    } else {
      assert (ks + ls)[0] == ks[0] && (ks + ls)[1..] == ks[1..] + ls;
      ConcatByRow(analytics, ks[1..], ls, j);
      var h, x, y := analytics(ks[0]), Concat(analytics, ks[1..]), Concat(analytics, ls);
      assert Concat(analytics, ks + ls) == h + (x + y);
      assert h + (x + y) == (h + x) + y;
    }
  }

  /** The input of the chart stage of partition `k`: the `property_analytics`
      tables of its upstream partitions, oldest first. */
  function ChartInput(analytics: nat -> seq<PropertyMetric>, k: nat): seq<PropertyMetric> {
    Concat(analytics, UpstreamPartitions(k))
  }

  /** Every stored `property_analytics` table holds only rows stamped with its
      own partition's end, as the extraction and the aggregation produce them. */
  ghost predicate Stamped(analytics: nat -> seq<PropertyMetric>) {
    forall j: nat, m :: m in analytics(j) ==> m.monthEnd == PartitionEnd(j)
  }

  /** Loading distinct partitions of stamped tables keeps each row of a
      loaded partition as many times as that partition stores it, and no row
      of a partition that is not loaded. */
  lemma {:induction false} ConcatCount(analytics: nat -> seq<PropertyMetric>, ks: seq<nat>, j: nat, m: PropertyMetric)
    requires Stamped(analytics) && Distinct(ks) && m in analytics(j)
    ensures multiset(Concat(analytics, ks))[m] == if j in ks then multiset(analytics(j))[m] else 0
    decreases |ks|
  {
    if ks != [] {
      var tail := ks[1..];
      assert Distinct(tail) by {
        forall a, b | 0 <= a < b < |tail| ensures tail[a] != tail[b] {
          assert tail[a] == ks[a + 1] && tail[b] == ks[b + 1];
        }
      }
      ConcatCount(analytics, tail, j, m);
      assert Concat(analytics, ks) == analytics(ks[0]) + Concat(analytics, tail);
      if ks[0] == j {
        assert j !in tail by {
          forall b | 0 <= b < |tail| ensures tail[b] != j {
            assert tail[b] == ks[b + 1];
          }
        }
      } else {
        // rows of partition `ks[0]` carry its end, which is not `j`'s
        assert MonthIndex(PartitionEnd(ks[0])) != MonthIndex(PartitionEnd(j));
        assert m !in analytics(ks[0]);
        assert j in ks <==> j in tail;
      }
    }
  }

  /** The chart stage of partition `k` reads every stored row of partitions
      `k-4` to `k` exactly as many times as its partition stores it, and no
      row of any other partition. */
  lemma ChartInputCount(analytics: nat -> seq<PropertyMetric>, k: nat, j: nat, m: PropertyMetric)
    requires Stamped(analytics) && m in analytics(j)
    ensures multiset(ChartInput(analytics, k))[m] == if k - 4 <= j <= k then multiset(analytics(j))[m] else 0
  {
    var ks := UpstreamPartitions(k);
    assert Distinct(ks);
    ConcatCount(analytics, ks, j, m);
  }

  /** Extraction followed by aggregation yields a non-empty table stamped
      with its partition's end: a partition whose extraction succeeds always
      stores rows. */
  lemma AnalyticsStamped(rows: seq<QueryRow>, k: nat, geodesicMiles: (Point, Point) -> real)
    requires MonthlyReservations(rows, k, geodesicMiles).Success?
    ensures PropertyAnalytics(MonthlyReservations(rows, k, geodesicMiles).value) != []
    ensures forall m :: m in PropertyAnalytics(MonthlyReservations(rows, k, geodesicMiles).value) ==>
      m.monthEnd == PartitionEnd(k)
  {
    ExtractionKeepsWindow(rows, k, geodesicMiles);
    MonthEndKept(MonthlyReservations(rows, k, geodesicMiles).value, PartitionEnd(k));
  }

  /** The chart stage's input spans at most five consecutive partitions, the
      target and the four before it, and none before the epoch. */
  lemma ChartInputWithinFivePartitions(analytics: nat -> seq<PropertyMetric>, k: nat)
    requires Stamped(analytics)
    ensures forall m :: m in ChartInput(analytics, k) ==>
      && (exists j: nat :: k - 4 <= j <= k && m.monthEnd == PartitionEnd(j))
      && Before(Epoch, m.monthEnd)
  {
    var ks := UpstreamPartitions(k);
    forall m | m in ChartInput(analytics, k)
      ensures exists j: nat :: k - 4 <= j <= k && m.monthEnd == PartitionEnd(j)
      ensures Before(Epoch, m.monthEnd)
    {
      var i :| 0 <= i < |ks| && m in analytics(ks[i]);
      var j := ks[i];
      assert j in ks && k - 4 <= j <= k;
      assert m.monthEnd == PartitionEnd(j);
      StartsIncrease(0, j + 1);
      assert PartitionStart(0) == Epoch;
    }
  }

  /** The chart records are stamped with the target partition's end exactly
      when the target partition has rows; otherwise with an earlier one.  A
      partition has no rows only when its extraction failed (a successful one
      always stores rows, `AnalyticsStamped`). */
  lemma ChartStampIsTargetEnd(analytics: nat -> seq<PropertyMetric>, k: nat)
    requires Stamped(analytics)
    requires ChartInput(analytics, k) != []
    ensures MaxMonthEnd(ChartInput(analytics, k)) == PartitionEnd(k) <==> analytics(k) != []
  {
    var input := ChartInput(analytics, k);
    var ja := MaxStampSource(analytics, k);
    StartsIncrease(ja + 1, k + 1);
    if analytics(k) != [] {
      var m := analytics(k)[0];
      MetricInChartInput(analytics, k, m);
      var b :| 0 <= b < |input| && input[b] == m;
      assert AtOrBefore(input[b].monthEnd, MaxMonthEnd(input));
      assert input[b].monthEnd == PartitionEnd(k);
    } else {
      assert ja != k;
    }
  }

  /** The latest month end of the chart stage's input is the end of an
      upstream partition that holds rows. */
  lemma MaxStampSource(analytics: nat -> seq<PropertyMetric>, k: nat) returns (j: nat)
    requires Stamped(analytics)
    requires ChartInput(analytics, k) != []
    ensures j <= k && analytics(j) != [] && MaxMonthEnd(ChartInput(analytics, k)) == PartitionEnd(j)
  {
    var input := ChartInput(analytics, k);
    var ks := UpstreamPartitions(k);
    var a :| 0 <= a < |input| && input[a].monthEnd == MaxMonthEnd(input);
    assert input[a] in input;
    var i :| 0 <= i < |ks| && input[a] in analytics(ks[i]);
    j := ks[i];
    assert j in ks;
  }

  /** In a partition with metrics, every row of `emails_to_send` finds the
      chart written for its property in the same partition's chart stage. */
  lemma EmailsFindTheirCharts(analytics: nat -> seq<PropertyMetric>, k: nat, hosts: seq<Host>)
    requires Stamped(analytics)
    requires analytics(k) != []
    requires UniqueKeys(hosts, HostId)
    ensures var metrics := analytics(k);
      var input := ChartInput(analytics, k);
      var emails := EmailsToSend(metrics, hosts, ChartTable(input));
      && |emails| == |metrics|
      && forall i :: 0 <= i < |metrics| ==>
           && metrics[i].propertyId in PropertyIds(input)
           && emails[i].totalRevenueChart == Some(PathFor(input, metrics[i].propertyId))
  {
    var metrics, input := analytics(k), ChartInput(analytics, k);
    var charts := ChartTable(input);
    MetricInChartInput(analytics, k, metrics[0]);
    ChartStampIsTargetEnd(analytics, k);
    OneRecordPerProperty(input);
    ChartTableKeysUnique(charts);
    EmailChartIsTheMatch(metrics, hosts, charts);
    ChartFromKey(charts, input);
    forall i | 0 <= i < |metrics|
      ensures metrics[i].propertyId in PropertyIds(input)
      ensures EmailsToSend(metrics, hosts, charts)[i].totalRevenueChart == Some(PathFor(input, metrics[i].propertyId))
    {
      var m := metrics[i];
      MetricInChartInput(analytics, k, m);
      var c :| 0 <= c < |charts| && charts[c].propertyId == m.propertyId;
      assert charts[c] in charts && charts[c].monthEnd == m.monthEnd;
    }
  }

  /** The target partition's rows are part of the chart stage's input. */
  lemma MetricInChartInput(analytics: nat -> seq<PropertyMetric>, k: nat, m: PropertyMetric)
    requires m in analytics(k)
    ensures m in ChartInput(analytics, k) && m.propertyId in PropertyIds(ChartInput(analytics, k))
  {
    var ks, input := UpstreamPartitions(k), ChartInput(analytics, k);
    assert ks[|ks| - 1] == k && m in analytics(ks[|ks| - 1]);
    assert m in input;
    var a :| 0 <= a < |input| && input[a] == m;
    assert PropertyIds(input)[a] == m.propertyId;
  }

  /** Every chart record holds the chart path of its own property. */
  lemma ChartFromKey(charts: seq<ChartRecord>, input: seq<PropertyMetric>)
    requires charts == ChartTable(input)
    ensures forall c :: c in charts ==>
      c.propertyId in PropertyIds(input) && c.totalRevenueChart == PathFor(input, c.propertyId)
  {
    var ids := Unique(PropertyIds(input));
    forall c | c in charts
      ensures c.propertyId in PropertyIds(input) && c.totalRevenueChart == PathFor(input, c.propertyId)
    {
      var i :| 0 <= i < |charts| && charts[i] == c;
      assert c.propertyId == ids[i] && c.totalRevenueChart == PathFor(input, ids[i]);
      assert ids[i] in ids;
    }
  }

  /** Every row of a partition's `emails_to_send` is sent in that partition. */
  lemma PartitionEmailsAllSelected(metrics: seq<PropertyMetric>, hosts: seq<Host>,
                                   charts: seq<ChartRecord>, k: nat)
    requires forall m :: m in metrics ==> m.monthEnd == PartitionEnd(k)
    ensures DispatchRows(EmailsToSend(metrics, hosts, charts), k) == EmailsToSend(metrics, hosts, charts)
  {
    var withHosts := LeftJoin(metrics, hosts, MetricHostId, HostId);
    var merged := LeftJoin(withHosts, charts, HostedKey, ChartKey);
    var emails := EmailsToSend(metrics, hosts, charts);
    LeftJoinPairsMatch(metrics, hosts, MetricHostId, HostId);
    LeftJoinPairsMatch(withHosts, charts, HostedKey, ChartKey);
    forall e | e in emails ensures InDispatchWindow(e.metric.monthEnd, k) {
      var i :| 0 <= i < |emails| && emails[i] == e;
      assert merged[i] in merged;
      assert merged[i].0 in withHosts;
      StampInDispatchWindow(k, k);
    }
    DispatchRowsKeepsAll(emails, k);
  }

  /** One reservation ending on 2023-07-15 for property 7, costing 180000
      cents, its guest 80 miles away: the July 2023 partition (index 4) holds
      one metric row for it, stamped 2023-08-01 with one local reservation,
      and the extraction of the June 2023 partition (index 3), whose window
      holds no row, fails. */
  lemma JulyExample(geodesicMiles: (Point, Point) -> real)
    requires forall p, q :: geodesicMiles(p, q) == 80.0
    ensures var rows := [ExampleRow()];
      && MonthlyReservations(rows, 4, geodesicMiles).Success?
      && PropertyAnalytics(MonthlyReservations(rows, 4, geodesicMiles).value)
         == [PropertyMetric(7, 5, "Lisbon", Date(2023, 8, 1), 180000, 1)]
      && MonthlyReservations(rows, 3, geodesicMiles) == Failure(EmptyWindow)
  {
    var rows := [ExampleRow()];
    assert rows[1..] == [];
    InWindowIff(rows[0].endDate, 4);
    InWindowIff(rows[0].endDate, 3);
    assert Windowed(rows, 4) == rows;
    assert Windowed(rows, 3) == [];
    var r := Locate(rows[0], 4, geodesicMiles);
    assert r == Reservation(1, 7, 3, 180000, 5, "Lisbon", 80.0, Date(2023, 8, 1));
    assert WithDistance(rows[1..], 4, geodesicMiles) == Success([]);
    assert Complete(rows[0]);
    assert [r] + [] == [r];
    assert WithDistance(rows, 4, geodesicMiles) == Success([r] + []);
    var key := Key(r);
    assert [r][1..] == [];
    assert Group([r], key) == [r];
    assert Without([r], key) == [];
    assert CountLocal([r]) == 1;
    assert SumCost([r]) == 180000;
    assert PropertyAnalytics([]) == [];
    assert PropertyAnalytics([r]) == [Summarize(key, [r])] + [];
  }

  /** The reservation of the example, with its property (host 5, market
      Lisbon) and its guest found by the joins. */
  function ExampleRow(): QueryRow {
    QueryRow(1, 7, 3, Date(2023, 7, 15), 180000,
             Some(PropertySide(Point(38.7, -9.1), 5, "Lisbon")), Some(GuestSide(Point(39.7, -8.8))))
  }
}

=== FILE: Seqs.dfy ===
/** Facts about sequences that several stages share. */
module Seqs {

  /** No element occurs twice. */
  predicate Distinct<T(==)>(s: seq<T>) {
    forall i, j :: 0 <= i < j < |s| ==> s[i] != s[j]
  }

  /** A prefix grows by the next element. */
  lemma PrefixSnoc<T>(t: seq<T>, i: nat)
    requires i < |t|
    ensures t[..i] + [t[i]] == t[..i + 1]
  {
  }

  lemma DistinctCons<T>(x: T, t: seq<T>)
    requires Distinct(t) && x !in t
    ensures Distinct([x] + t)
  {
    var s := [x] + t;
    forall i, j | 0 <= i < j < |s| ensures s[i] != s[j] {
      assert s[j] == t[j - 1];
      if i > 0 {
        assert s[i] == t[i - 1];
      }
    }
  }

  lemma DistinctSnoc<T>(t: seq<T>, x: T)
    requires Distinct(t) && x !in t
    ensures Distinct(t + [x])
  {
    var s := t + [x];
    forall i, j | 0 <= i < j < |s| ensures s[i] != s[j] {
      assert s[i] == t[i];
      if j < |t| {
        assert s[j] == t[j];
      }
    }
  }

  /** The position of the first occurrence of `x` in `s`. */
  function FirstIndex<T(==)>(s: seq<T>, x: T): (i: nat)
    requires x in s
    ensures i < |s| && s[i] == x && x !in s[..i]
  {
    if s[0] == x then 0 else 1 + FirstIndex(s[1..], x)
  }

  lemma {:induction false} FirstIndexPrefix<T>(s: seq<T>, n: nat, x: T)
    requires n <= |s| && x in s[..n]
    ensures FirstIndex(s, x) == FirstIndex(s[..n], x)
  {
    if s[0] != x {
      assert s[1..][..n - 1] == s[..n][1..];
      FirstIndexPrefix(s[1..], n - 1, x);
    }
  }

  /** The elements of `s` that satisfy `p`, in their order (a boolean mask
      applied to a column). */
  function Filter<T(!new)>(s: seq<T>, p: T -> bool): (r: seq<T>)
    ensures |r| <= |s|
    ensures forall x :: x in r <==> x in s && p(x)
  {
    if s == [] then []
    else
      (if p(s[0]) then [s[0]] else []) + Filter(s[1..], p)
  }

  /** Filtering works element by element: the filter of two parts is the
      filter of the first followed by the filter of the second. */
  lemma {:induction false} FilterAppend<T(!new)>(a: seq<T>, b: seq<T>, p: T -> bool)
    ensures Filter(a + b, p) == Filter(a, p) + Filter(b, p)
  {
    if a == [] {
      assert a + b == b;
    } else {
      var h := if p(a[0]) then [a[0]] else [];
      assert (a + b)[0] == a[0] && (a + b)[1..] == a[1..] + b;
      FilterAppend(a[1..], b, p);
      assert Filter(a + b, p) == h + (Filter(a[1..], p) + Filter(b, p));
      assert h + (Filter(a[1..], p) + Filter(b, p)) == (h + Filter(a[1..], p)) + Filter(b, p);
    }
  }

  /** A filter keeps every element satisfying `p` as often as it occurs, and
      no other element. */
  lemma {:induction false} FilterCount<T(!new)>(s: seq<T>, p: T -> bool)
    ensures forall x :: multiset(Filter(s, p))[x] == if p(x) then multiset(s)[x] else 0
  {
    if s != [] {
      FilterCount(s[1..], p);
      assert s == [s[0]] + s[1..];
    }
  }

  /** A filter keeps a whole sequence whose elements all satisfy `p`. */
  lemma {:induction false} FilterKeepsAll<T(!new)>(s: seq<T>, p: T -> bool)
    requires forall x :: x in s ==> p(x)
    ensures Filter(s, p) == s
  {
    if s != [] {
      FilterKeepsAll(s[1..], p);
      assert s == [s[0]] + s[1..];
    }
  }

  /** The sequences `f` gives for the elements of `s`, one after the other. */
  function FlatMap<T, U>(s: seq<T>, f: T -> seq<U>): (r: seq<U>)
    ensures (forall i :: 0 <= i < |s| ==> f(s[i]) != []) ==> |r| >= |s|
  {
    if s == [] then [] else f(s[0]) + FlatMap(s[1..], f)
  }

  /** Mapping works element by element: the result for two parts is the
      result for the first followed by that for the second. */
  lemma {:induction false} FlatMapAppend<T, U>(a: seq<T>, b: seq<T>, f: T -> seq<U>)
    ensures FlatMap(a + b, f) == FlatMap(a, f) + FlatMap(b, f)
  {
    if a == [] {
      assert a + b == b;
    } else {
      var h := f(a[0]);
      assert (a + b)[0] == a[0] && (a + b)[1..] == a[1..] + b;
      FlatMapAppend(a[1..], b, f);
      assert FlatMap(a + b, f) == h + (FlatMap(a[1..], f) + FlatMap(b, f));
      assert h + (FlatMap(a[1..], f) + FlatMap(b, f)) == (h + FlatMap(a[1..], f)) + FlatMap(b, f);
    }
  }
}

=== FILE: Storage.dfy ===
/** The local file storage the chart images are written to and read from,
    as a map from paths (relative to the storage's root directory) to the
    bytes of the file there. */
module Storage {

  import opened Wrappers
  import Base64

  type Bytes = seq<Base64.Byte>

  /** A write of `content` to `path`. */
  datatype FileWrite = FileWrite(path: string, content: Bytes)

  /** The files created by the writes `ws`, made one after the other. */
  function Written(ws: seq<FileWrite>): map<string, Bytes> {
    if ws == [] then map[]
    else
      var n := |ws| - 1;
      Written(ws[..n])[ws[n].path := ws[n].content]
  }

  /** Making one more write on top of existing files. */
  lemma WrittenStep(base: map<string, Bytes>, ws: seq<FileWrite>, i: nat)
    requires i < |ws|
    ensures base + Written(ws[..i + 1]) == (base + Written(ws[..i]))[ws[i].path := ws[i].content]
  {
    assert ws[..i + 1][..i] == ws[..i];
  }

  /** The writes create exactly the files they name. */
  lemma {:induction false} WrittenPaths(ws: seq<FileWrite>)
    ensures forall path :: path in Written(ws) <==> exists i :: 0 <= i < |ws| && ws[i].path == path
  {
    if ws != [] {
      var n := |ws| - 1;
      WrittenPaths(ws[..n]);
      forall path | path in Written(ws) ensures exists i :: 0 <= i < |ws| && ws[i].path == path {
        if path != ws[n].path {
          assert path in Written(ws[..n]);
          var i :| 0 <= i < n && ws[..n][i].path == path;
          assert ws[i].path == path;
        }
      }
      forall i | 0 <= i < |ws| ensures ws[i].path in Written(ws) {
        if i < n {
          assert ws[..n][i] == ws[i];
        }
      }
    }
  }

  /** The last write to a path decides what the file holds. */
  lemma {:induction false} LastWriteWins(ws: seq<FileWrite>, i: nat)
    requires i < |ws|
    requires forall j :: i < j < |ws| ==> ws[j].path != ws[i].path
    ensures ws[i].path in Written(ws) && Written(ws)[ws[i].path] == ws[i].content
  {
    var n := |ws| - 1;
    if i < n {
      assert ws[..n][i] == ws[i];
      LastWriteWins(ws[..n], i);
    }
  }

  class ImageStorage {
    var files: map<string, Bytes>

    constructor (files: map<string, Bytes>)
      ensures this.files == files
    {
      this.files := files;
    }

    /** Creates or overwrites the file at `path`; every other file stays. */
    method Write(path: string, data: Bytes)
      modifies this
      ensures files == old(files)[path := data]
    {
      files := files[path := data];
    }

    /** The bytes of the file at `path`; `None` where opening the file fails
        because there is none. */
    method Read(path: string) returns (data: Option<Bytes>)
      ensures path in files <==> data.Some?
      ensures data.Some? ==> data.value == files[path]
    {
      data := if path in files then Some(files[path]) else None;
    }
  }
}

=== FILE: Tables.dfy ===
/** The rows of the tables the pipeline passes from stage to stage.  Every
    table is a sequence of rows; money is in integer cents. */
module Tables {

  import opened Wrappers
  import opened Calendar

  /** A geographic position, as latitude and longitude in degrees. */
  datatype Point = Point(lat: real, lon: real)

  /** The columns the extraction query takes from the property table. */
  datatype PropertySide = PropertySide(location: Point, hostId: int, marketName: string)

  /** The columns the extraction query takes from the guest table. */
  datatype GuestSide = GuestSide(location: Point)

  /** One row of `reservation LEFT JOIN property LEFT JOIN guest`, before the
      date filter; a side is `None` when the join found no partner. */
  datatype QueryRow = QueryRow(
    id: int,
    propertyId: int,
    guestId: int,
    endDate: Date,
    totalCost: int,
    property: Option<PropertySide>,
    guest: Option<GuestSide>)

  /** One row of the `monthly_reservations` table: a reservation ending in the
      partition, with its distance in miles and the partition's `month_end`. */
  datatype Reservation = Reservation(
    id: int,
    propertyId: int,
    guestId: int,
    totalCost: int,
    hostId: int,
    marketName: string,
    dist: real,
    monthEnd: Date)

  /** The grouping key of the aggregation: property, month, market and host. */
  datatype GroupKey = GroupKey(propertyId: int, monthEnd: Date, marketName: string, hostId: int)

  /** One row of the `property_analytics` table, with its columns in the order
      the stage selects them. */
  datatype PropertyMetric = PropertyMetric(
    propertyId: int,
    hostId: int,
    marketName: string,
    monthEnd: Date,
    totalRevenue: int,
    numLocalReservations: nat)

  /** One row of the host directory. */
  datatype Host = Host(id: int, name: string, email: string)

  /** One row of the `historical_bar_charts` table. */
  datatype ChartRecord = ChartRecord(propertyId: int, totalRevenueChart: string, monthEnd: Date)

  /** One row of the `emails_to_send` table: a metric row with the host and
      chart columns of the two left joins, `None` where a join found nothing. */
  datatype EmailRow = EmailRow(
    metric: PropertyMetric,
    host: Option<Host>,
    totalRevenueChart: Option<string>)

  function KeyOf(m: PropertyMetric): GroupKey {
    GroupKey(m.propertyId, m.monthEnd, m.marketName, m.hostId)
  }
}

=== FILE: Text.dfy ===
/** Decimal formatting of integers as Python's `f"{n}"` and `strftime` write
    them, with the parser that inverts it. */
module Text {

  predicate IsDigit(c: char) {
    '0' <= c <= '9'
  }

  function DigitChar(d: nat): (c: char)
    requires d < 10
    ensures IsDigit(c)
  {
    ('0' as int + d) as char
  }

  function DigitValue(c: char): (d: nat)
    requires IsDigit(c)
    ensures d < 10 && DigitChar(d) == c
  {
    c as int - '0' as int
  }

  /** The decimal digits of `n`, most significant first, with no leading zero. */
  function NatToDecimal(n: nat): (s: string)
    ensures 1 <= |s|
    ensures forall i :: 0 <= i < |s| ==> IsDigit(s[i])
    decreases n
  {
    if n < 10 then [DigitChar(n)] else NatToDecimal(n / 10) + [DigitChar(n % 10)]
  }

  /** The value of a string of decimal digits (0 for the empty string). */
  function ParseDecimal(s: string): nat
    requires forall i :: 0 <= i < |s| ==> IsDigit(s[i])
  {
    if s == [] then 0 else ParseDecimal(s[..|s| - 1]) * 10 + DigitValue(s[|s| - 1])
  }

  /** Parsing the decimal form of a number gives the number back. */
  lemma {:induction false} ParseNatToDecimal(n: nat)
    ensures ParseDecimal(NatToDecimal(n)) == n
    decreases n
  {
    var s := NatToDecimal(n);
    if n >= 10 {
      assert s[..|s| - 1] == NatToDecimal(n / 10);
      ParseNatToDecimal(n / 10);
    }
  }

  /** Distinct numbers have distinct decimal forms. */
  lemma NatToDecimalInjective(a: nat, b: nat)
    requires NatToDecimal(a) == NatToDecimal(b)
    ensures a == b
  {
    ParseNatToDecimal(a);
    ParseNatToDecimal(b);
  }

  /** `f"{i}"` for an integer: a minus sign before the digits of a negative one. */
  function IntToDecimal(i: int): (s: string)
    ensures 1 <= |s|
    ensures forall j :: 0 <= j < |s| ==> IsDigit(s[j]) || s[j] == '-'
    ensures IsDigit(s[|s| - 1])
    ensures s[0] == '-' <==> i < 0
  {
    if i < 0 then "-" + NatToDecimal(-i) else NatToDecimal(i)
  }

  /** Distinct integers have distinct decimal forms. */
  lemma IntToDecimalInjective(a: int, b: int)
    requires IntToDecimal(a) == IntToDecimal(b)
    ensures a == b
  {
    var s := IntToDecimal(a);
    if a < 0 {
      assert s[1..] == NatToDecimal(-a) == NatToDecimal(-b);
      NatToDecimalInjective(-a, -b);
    } else {
      NatToDecimalInjective(a, b);
    }
  }

  /** The two-digit, zero-padded form of a number below 100 (`%m` of strftime). */
  function TwoDigits(n: nat): (s: string)
    requires n < 100
    ensures |s| == 2 && IsDigit(s[0]) && IsDigit(s[1])
    ensures ParseDecimal(s) == n
  {
    var s := [DigitChar(n / 10), DigitChar(n % 10)];
    assert DigitValue(s[0]) == n / 10 && DigitValue(s[1]) == n % 10;
    assert s[..1][..0] == [];
    assert ParseDecimal(s[..1]) == n / 10;
    s
  }

  /** The parts of `a/b/c` with `b` two characters long. */
  lemma SlashSeparated(a: string, b: string, c: string)
    requires |b| == 2
    ensures var s := a + ("/" + b + "/" + c);
      && |s| == |a| + 4 + |c|
      && s[..|a|] == a && s[|a|] == '/' && s[|a| + 1..|a| + 3] == b && s[|a| + 3] == '/'
      && s[|a| + 4..] == c
  {
    var t := "/" + b + "/" + c;
    assert t[1..3] == b && t[4..] == c;
  }

  /** Two strings cut after their last occurrence of the marker `c` are cut at
      the same place when they are equal. */
  lemma SplitAfterLastMarker(a1: string, b1: string, a2: string, b2: string, c: char)
    requires a1 + b1 == a2 + b2
    requires |a1| > 0 && a1[|a1| - 1] == c && c !in b1
    requires |a2| > 0 && a2[|a2| - 1] == c && c !in b2
    ensures a1 == a2 && b1 == b2
  {
    var s := a1 + b1;
    assert s[|a1| - 1] == c && s[|a2| - 1] == c;
    assert forall i :: |a1| <= i < |s| ==> s[i] == b1[i - |a1|];
    assert forall i :: |a2| <= i < |s| ==> s[i] == b2[i - |a2|];
    assert |a1| == |a2|;
    assert a1 == s[..|a1|] && a2 == s[..|a2|];
    assert b1 == s[|a1|..] && b2 == s[|a2|..];
  }

  /** Equal strings cut at the same distance from their end give equal parts. */
  lemma SplitSameLength(a1: string, b1: string, a2: string, b2: string)
    requires a1 + b1 == a2 + b2 && |b1| == |b2|
    ensures a1 == a2 && b1 == b2
  {
    assert a1 == (a1 + b1)[..|a1|] && a2 == (a2 + b2)[..|a2|];
    assert b1 == (a1 + b1)[|a1|..] && b2 == (a2 + b2)[|a2|..];
  }

  /** Equal strings with an equal suffix have equal prefixes. */
  lemma StripSuffix(a1: string, a2: string, t: string)
    requires a1 + t == a2 + t
    ensures a1 == a2
  {
    assert a1 == (a1 + t)[..|a1|];
    assert a2 == (a2 + t)[..|a2|];
  }
}

=== FILE: Wrappers.dfy ===
/** Optional values and results with an error, used for the nulls that pandas
    joins produce and for the exceptions the pipeline raises. */
module Wrappers {

  datatype Option<+T> = None | Some(value: T)

  datatype Result<+T, +E> = Success(value: T) | Failure(error: E)
}
